=== FILE: README.md ===
# ITNB crawl-and-ingest pipeline, modelled in Dafny

This project models the decision logic of the ITNB pipeline. The pipeline has four parts:

- Two scrapers turn crawled web pages into JSON files.
  - `scrape_basic` writes `page_{i}.json` and `page_{i}_chunk_{j}.json`.
  - `scrape_deduplicate` keeps numbered page files `page_{n}.json` and skips writing a page whose URL digest (the page id) one of them already holds. It also keeps a content-addressed Chunk Store keyed by a digest of the normalized chunk.
- An ingestion driver sends the deduplicated chunks to a search service. It keeps a ledger of chunk hashes already sent.
- The chat client picks the top-matching chunk out of a search response and labels it with a title and URL.

Every operation is a pure function over immutable data. Each scraper is a fold over the list of pages the crawler returned. The ingestion driver is a fold over the sorted directory listing. Things outside the program become parameters:

- the digests (MD5, SHA-256);
- reading a chunk file;
- the search service's answer to a submission;
- the regular expressions of the chat client.

Modules, one per concern:

| file | module | what it holds |
|---|---|---|
| wrappers.dfy | Wrappers | `Option` |
| text.dfy | Text | `split`, `" ".join`, `strip`, the newline collapse, `clean_text`, `lower`, `normalize_text` |
| chunking.dfy | Chunking | `chunk_text` (offsets and texts) |
| identity.dfy | Identity | `make_page_id`, `make_chunk_hash` |
| naming.dfy | Naming | `str(n)` and the file names `page_{n}.json`, `page_{n}_chunk_{m}.json` |
| fetch.dfy | Fetch | what the scrapers read off a crawled page |
| crawl_dedup.dfy | CrawlDedup | the deduplicating scraper's page loop |
| crawl_basic.dfy | CrawlBasic | the basic scraper's page loop |
| listing.dfy | Listing | `sorted(os.listdir(...))` and the `.json` filter |
| ledger.dfy | Ledger | `load_hashes`, `save_hashes` |
| ingest.dfy | Ingest | the ingestion driver |
| chat.dfy | Chat | `get_top_matching_chunk` and the source label |

A page id is meant to be written to the raw store at most once. The code, however, numbers new raw files from the count of ids it loaded, so a raw directory with a missing file number gets an existing file overwritten (`CrawlDedup.GapInRawStoreOverwrites`). The model follows the code. For the same reason a pass is idempotent only from a gap-free raw directory, files `page_1.json` to `page_N.json` (`CrawlDedup.CrawlIdempotent` requires it). The scraper itself never leaves a gap (`CrawlDedup.CrawlPassKeepsStores`), but from a directory holding only `page_2.json`, two passes over the same two pages overwrite that file twice (`CrawlDedup.GapInRawStoreBreaksIdempotence`).

Behaviour the model keeps as written:

- **Hash-less chunk files.** A chunk file without a `chunk_hash` reads as `None`. Once the first hash-less submission is accepted, `None` is in the ingestion ledger, so every later hash-less file is skipped as a duplicate (`Ingest.HashlessFilesShareOneSlot`). While hash-less submissions are rejected, `None` stays out and the next hash-less file is submitted again.
- **The basic scraper's summary line.** After a page's chunk loop, the basic scraper prints the loop variable `j`. A page whose cleaned content has no words leaves `j` unbound, or bound to an earlier page's value. If no earlier page bound it, the run stops with an error after that page's raw file is written. `CrawlBasic.BasicState` records this as `lastChunk` and `crashed`.
- **Titles of re-chunked pages.** The deduplicating scraper computes the title `Page {raw_index + 1}` before it checks the page id. A page whose id is already known writes no raw file, yet its new chunk files carry that title. At that point the title names no raw file (`CrawlDedup.KnownPageChunksTitledWithUnusedNumber`). Once the loop reaches the next page with a new id, that page is written to exactly that file number, so the chunks' title then names another page's raw file (`CrawlDedup.KnownPageTitleThenNamesNextNewPage`, `CrawlDedup.KnownPageChunksKeepTitle`). The model's records keep the title number n; `Naming.PageTitle` renders it.
- **Rejected submissions.** A submission that raises does not put its hash in the ledger. So a later file with the same hash in the same run is submitted again. If no file with that hash is accepted in the run, the saved ledger lacks it, and the next run over the same directory submits the first file in sorted order that carries it. That file need not be the rejected one (`Ingest.RejectedIsRetried`, `Ingest.NextRunResubmits`).

## Model

| member | source | states |
|---|---|---|
| Text.CleanText | scraping/scrape_deduplicate.py:22-24 | the result has no two adjacent newlines and starts and ends with a non-whitespace character |
| Text.CleanTextKeepsWords | scraping/scrape_deduplicate.py:22-24 | `clean_text` keeps the word sequence: `split(clean_text(t)) == split(t)` |
| Text.CleanTextIdempotent | scraping/scrape_basic.py:21-23 | cleaning twice is cleaning once |
| Text.CleanTextEmptyIffBlank | scraping/scrape_deduplicate.py:22-24 | the cleaned text is empty exactly when the text has no words |
| Text.WordsJoin | scraping/scrape_deduplicate.py:27 | splitting words joined by single spaces gives the same words back |
| Text.Words | scraping/scrape_deduplicate.py:27 | `s.split()` yields non-empty words without whitespace, the first starting with `s[0]` when that is not whitespace; `Text.WordsJoin` is its inverse |
| Text.WordsLower | scraping/scrape_deduplicate.py:27 | lower-casing then splitting equals splitting then lower-casing each word |
| Text.NormalizeText | scraping/scrape_deduplicate.py:26-27 | the result is the text's words, each lower-cased, joined by single spaces, and it splits back into exactly those lower-cased words |
| Text.NormalizeTextIdempotent | scraping/scrape_deduplicate.py:26-27 | `normalize_text` is idempotent |
| Text.NormalizeTextEqualIff | scraping/scrape_deduplicate.py:26-27 | two texts normalize equally exactly when their lower-cased word lists agree (both directions) |
| Text.StripEmptyIffBlank | chat/chat.py:52 | `s.strip()` is empty exactly when every character of `s` is whitespace |
| Chunking.ChunksFromShape | scraping/scrape_deduplicate.py:29-32 | the loop yields one chunk per offset i, i+size, ... below the word count, each holding the words from its offset |
| Chunking.ChunkText | scraping/scrape_deduplicate.py:29-32 | no chunks exactly when the text has no words; the k-th offset is k·size, and offset // size is k |
| Chunking.ChunkTextContents | scraping/scrape_deduplicate.py:29-32 | each chunk holds the text's words from its offset, 1..size of them, and all but the last hold exactly size |
| Chunking.ChunkTextCoversWords | scraping/scrape_deduplicate.py:29-32 | the chunks' words, one chunk after another, are exactly the text's words: no gap, no overlap, no reordering |
| Chunking.ChunkTextsJoinToWords | scraping/scrape_basic.py:25-28 | joining the chunk texts with spaces gives the text's words joined with spaces |
| Chunking.FourHundredFiftyWords | scraping/scrape_deduplicate.py:101-113 | 450 words give three chunks of 200, 200 and 50 words with chunk indices 0, 1, 2 |
| Identity.ChunkHashIgnoresSpacing | scraping/scrape_deduplicate.py:37-39 | chunks with the same words, however spaced, get the same hash |
| Identity.ChunkHashIgnoresCase | scraping/scrape_deduplicate.py:37-39 | chunks whose words agree up to letter case get the same hash |
| Identity.ChunkHashOfNormalized | scraping/scrape_deduplicate.py:37-39 | hashing the normalized text gives the text's own hash |
| Identity.ChunkHashOfCleaned | scraping/scrape_deduplicate.py:37-39 | cleaning a chunk does not change its hash |
| Identity.ChunkHash | scraping/scrape_deduplicate.py:37-39 | a chunk's hash is the SHA-256 of its lower-cased word list joined by single spaces, so it depends on nothing else of the text |
| Naming.DecimalInjective | scraping/scrape_basic.py:60 | different page numbers print differently |
| Naming.PageFileNameInjective | scraping/scrape_basic.py:60 | different pages get different raw file names |
| Naming.ChunkFileNameInjective | scraping/scrape_basic.py:71 | different (page, chunk) pairs get different chunk file names |
| Naming.ChunkFileNameIsNotPageFileName | scraping/scrape_basic.py:60-71 | no chunk file name is a raw page file name |
| Naming.RenderInjective | scraping/scrape_basic.py:60-71 | distinct files of either kind have distinct names, so a directory can be keyed by the numbers a name encodes |
| Naming.PageTitleInjective | scraping/scrape_deduplicate.py:76 | different page numbers give different titles `Page {n}`, so a record can keep the number in place of the title |
| Fetch.Content | scraping/scrape_deduplicate.py:70-72 | non-empty markdown is preferred over text; no content exactly when both are absent or empty |
| CrawlDedup.StoreChunks | scraping/scrape_deduplicate.py:101-121 | existing chunk files are never overwritten; the new key set is the old one plus the chunks' hashes; content addressing is kept |
| CrawlDedup.StoreChunksRecords | scraping/scrape_deduplicate.py:101-121 | every new chunk file is keyed by its own hash, carries the page's id, URL and title number, and holds one of the page's chunks with index offset // 200 |
| CrawlDedup.CrawlStep | scraping/scrape_deduplicate.py:68-121 | a page without content changes nothing; a new page id is recorded and written to the next raw file number; a known id leaves the raw store and counter alone; the chunk keys grow by the page's chunk hashes; every new chunk file carries the page's id and URL and the title number `raw_index + 1` |
| CrawlDedup.CrawlFold | scraping/scrape_deduplicate.py:68-121 | over the page loop the id set and the raw counter only grow, and no existing chunk file is changed |
| CrawlDedup.CrawlPass | scraping/scrape_deduplicate.py:59-121 | a run keeps every id it loaded from the raw directory and every chunk file already present |
| CrawlDedup.SameUrlWrittenOnce | scraping/scrape_deduplicate.py:68-95 | when a pass visits the same URL at positions i < j, both with content, the step at j writes no raw file and keeps the counter: the page id depends on the URL alone |
| CrawlDedup.StartStateWF | scraping/scrape_deduplicate.py:59-66 | ids loaded from a well-formed raw directory give a counter equal to the file count |
| CrawlDedup.StepWF | scraping/scrape_deduplicate.py:79-92 | a raw write always lands on a file number not yet used, and the id set stays the ids of the raw files |
| CrawlDedup.CounterCountsIds | scraping/scrape_deduplicate.py:66-92 | the raw counter equals the number of known ids and of raw files |
| CrawlDedup.KnownPageStillChunked | scraping/scrape_deduplicate.py:94-101 | a page whose id is known is still chunked; only its raw write is skipped |
| CrawlDedup.CrawlPassKeepsStores | scraping/scrape_deduplicate.py:59-121 | a pass keeps both stores well formed, overwrites no existing file, and adds one raw file per newly seen id |
| CrawlDedup.StoreChunksCovered | scraping/scrape_deduplicate.py:105-107 | chunks whose hashes are all present write nothing |
| CrawlDedup.FoldCovers | scraping/scrape_deduplicate.py:68-121 | after a pass, every page with content has its id known and all its chunk hashes stored |
| CrawlDedup.FoldCoveredIsIdentity | scraping/scrape_deduplicate.py:79-107 | a pass over pages already covered changes nothing |
| CrawlDedup.CrawlIdempotent | scraping/scrape_deduplicate.py:59-121 | from a gap-free raw directory (`page_1.json` .. `page_N.json`, distinct ids), a second pass over the same pages, from the stores the first left, writes no page and no chunk |
| CrawlDedup.KnownPageChunksTitledWithUnusedNumber | scraping/scrape_deduplicate.py:76-116 | the new chunk files of a page whose id is already known are titled with a number that no raw file holds |
| CrawlDedup.KnownPageTitleThenNamesNextNewPage | scraping/scrape_deduplicate.py:76-92 | after a known page, the next page with a new id is written to file number `raw_index + 1`, the number the known page's chunks were titled with |
| CrawlDedup.KnownPageChunksKeepTitle | scraping/scrape_deduplicate.py:76-121 | the known page's new chunk files keep that title number through the next step |
| CrawlDedup.GapInRawStoreOverwrites | scraping/scrape_deduplicate.py:66-92 | with only `page_2.json` on disk, the next new page is written over `page_2.json` |
| CrawlDedup.GapInRawStoreBreaksIdempotence | scraping/scrape_deduplicate.py:59-92 | without a gap-free raw directory idempotence fails: from only `page_2.json`, holding the first page's id, the first pass writes the second page over it and a second pass writes the first page back |
| CrawlBasic.WriteChunks | scraping/scrape_basic.py:65-73 | chunk j (from 1) lands in `page_{n}_chunk_{j}.json` with the page's URL and title; other files are untouched; the new names are exactly those |
| CrawlBasic.BasicStep | scraping/scrape_basic.py:48-75 | no content, no writes; otherwise the raw file and one chunk file per chunk are written, and the loop variable and stop flag follow the chunk count |
| CrawlBasic.BasicFold | scraping/scrape_basic.py:48-75 | once the run has stopped nothing more happens; once a page has bound the loop variable, the run never stops |
| CrawlBasic.WriteChunksKeepsOtherPage | scraping/scrape_basic.py:65-73 | writing one page's chunks leaves every other page's chunk files alone |
| CrawlBasic.ContentStepKeepsOtherPage | scraping/scrape_basic.py:55-73 | processing one page keeps what another page wrote |
| CrawlBasic.FoldKeepsEarlierPage | scraping/scrape_basic.py:48-75 | what a page wrote survives the rest of the run |
| CrawlBasic.FoldWritesEveryPage | scraping/scrape_basic.py:48-75 | a run that does not stop ends with every page's raw file and chunk files present and correct |
| CrawlBasic.BasicRunWrites | scraping/scrape_basic.py:48-75 | the same for a whole run with the real chunker |
| CrawlBasic.NoCrashWhenEveryPageHasChunks | scraping/scrape_basic.py:65-75 | when every page with content has at least one chunk, the run never stops early |
| CrawlBasic.BlankFirstPageStopsRun | scraping/scrape_basic.py:55-75 | a first page with content but no words gets its raw file, then the run stops |
| CrawlBasic.BasicChunksEmptyIffBlank | scraping/scrape_basic.py:21-28 | the basic chunker yields nothing exactly for content without words |
| CrawlBasic.NewlineOnlyFirstPageStopsRun | scraping/scrape_basic.py:50-75 | a first page whose content is a bare newline stops the run |
| Listing.NameLeTotal | ingestion/ingest_deduplicate.py:77 | any two names are ordered one way or the other |
| Listing.NameLeAntisymmetric | ingestion/ingest_deduplicate.py:77 | names ordered both ways are equal |
| Listing.Insert | ingestion/ingest_deduplicate.py:77 | inserting into a sorted listing keeps it sorted and adds exactly that name |
| Listing.Sort | ingestion/ingest_deduplicate.py:77 | the sorted listing is ordered and is a permutation of the listing |
| Listing.SortSortedIsIdentity | ingestion/ingest_deduplicate.py:77 | sorting an ordered listing changes nothing |
| Listing.SortKeepsJsonCount | ingestion/ingest_deduplicate.py:77-79 | sorting keeps the number of `.json` names |
| Ledger.LoadHashes | ingestion/ingest_deduplicate.py:48-55 | a missing, zero-length or undecodable ledger gives the empty set; otherwise the set of stored hashes |
| Ledger.SaveHashes | ingestion/ingest_deduplicate.py:58-60 | the written list has each hash once, and loading it gives back exactly the saved set |
| Ingest.IngestFile | ingestion/ingest_deduplicate.py:77-110 | a name not ending in `.json` changes nothing; an unreadable `.json` file is a failure, appended to the failed names, with no submission; a hash already in the ledger is only counted as skipped; otherwise the file is submitted with its hash, and on success the hash joins the ledger and `success` grows, while on an exception the ledger is unchanged, `failure` grows and the name is appended to the failed names; each `.json` file adds one to exactly one counter |
| Ingest.IngestFold | ingestion/ingest_deduplicate.py:84-110 | over the loop the ledger only grows, the submissions only get appended to, and every submission carries the hash its file reads as and the service's answer to that file |
| Ingest.FoldCounts | ingestion/ingest_deduplicate.py:71-118 | `success + skipped + failure` grows by the number of `.json` names visited |
| Ingest.RunTotal | ingestion/ingest_deduplicate.py:77-118 | the summary total is the number of `.json` files in the listing |
| Ingest.StepConsistent | ingestion/ingest_deduplicate.py:84-110 | each file keeps the ledger equal to the loaded ledger plus the accepted hashes, and keeps submissions fresh |
| Ingest.RunConsistent | ingestion/ingest_deduplicate.py:70-112 | after a run: the ledger is the loaded ledger plus exactly the accepted hashes; no submitted hash was in the loaded ledger; an accepted hash is never submitted again; `failure == len(failed_items)`; every submission carries the hash its file reads as and the service's answer to that file |
| Ingest.KnownHashIsSkipped | ingestion/ingest_deduplicate.py:88-92 | a file whose hash is in the ledger is counted as skipped and not submitted |
| Ingest.RejectedIsRetried | ingestion/ingest_deduplicate.py:101-110 | when no file with the same hash was accepted in the same run, a rejected file's hash stays out of the ledger; that file, visited first from the saved ledger and accepted, is submitted and its hash recorded |
| Ingest.NextRunResubmits | ingestion/ingest_deduplicate.py:70-112 | when no file with the same hash was accepted, the hash stays out of the saved ledger, and the next run's loop over the sorted listing from that ledger submits the first `.json` file carrying the hash |
| Ingest.SubmittedIsJsonName | ingestion/ingest_deduplicate.py:77-101 | only `.json` files are submitted |
| Ingest.HashlessFilesShareOneSlot | ingestion/ingest_deduplicate.py:88-103 | two files without `chunk_hash`: the first accepted puts `None` in the ledger and the second is skipped |
| Ingest.IngestMain | ingestion/ingest_deduplicate.py:66-112 | the saved ledger loads as the loaded ledger plus the hashes of the accepted submissions, each submission being a file's own hash with the service's answer to that file; the counters add up to the `.json` count |
| Chat.Head | chat/chat.py:53 | `s[:m]` is a prefix of `s`; its length is min(m, len s) for m ≥ 0 and max(0, len s + m) for negative m |
| Chat.Source | chat/chat.py:49-57 | a first hit with non-blank text is chosen whatever the aggregate holds; otherwise the aggregate when it is non-blank, else nothing; the chosen text is never blank |
| Chat.TopMatchingChunk | chat/chat.py:48-59 | `None` exactly when neither the first hit nor the aggregate has non-blank text; otherwise a prefix of the chosen text, at most `max_chars` long, and non-empty when `max_chars > 0` |
| Chat.FirstHitWins | chat/chat.py:49-53 | a non-blank first hit gives its first `max_chars` characters |
| Chat.AggregateFallback | chat/chat.py:55-57 | without a usable first hit, a non-blank aggregate gives its first `max_chars` characters |
| Chat.NothingUsable | chat/chat.py:59 | with neither usable, the result is `None` |
| Chat.Respond | chat/chat.py:99-117 | "no relevant content" exactly when the response or its aggregated text is missing or empty; with no hits, the title and URL are "Unknown title" and "Unknown URL" |
| Chat.BlankAggregateShowsPlaceholder | chat/chat.py:99-121 | a whitespace-only aggregate with no hits passes the early check, and the placeholder is shown with both default labels |

## Left out

- The crawler (`AsyncWebCrawler`, `asyncio`, `max_pages`, `max_depth`): a crawl is the list of pages it returned.
- A page attribute that is present but `None`: `url` and `title` are either present strings or absent, so `getattr` with a default covers them.
- MD5 and SHA-256: they are arbitrary deterministic functions (`Identity.Digests`), and nothing assumes they are injective.
- JSON encoding and decoding, file opening and `os.path` calls. The directories are maps, and reading a chunk file is the parameter `read`.
- A ledger file whose JSON is not a list: `set()` of a dict, a string or a number is not modelled; a readable ledger holds a list.
- Ledger.LoadHashes: does not model the two ways loading raises and stops the driver before any file is visited: a ledger that is not valid UTF-8 (the decode error is not a JSON decode error, so it is not caught) and a list holding lists or objects (unhashable, so `set()` raises). A ledger is either unreadable as JSON, which gives the empty set, or a list of strings and nulls.
- CrawlDedup.StartState: does not model the ways loading the raw directory raises and stops the scraper before any page is visited: a raw `.json` file that is not valid UTF-8 or not valid JSON (a zero-length or truncated file from an interrupted run), and one whose JSON is not an object (`.get` on a list). The model loads every raw directory.
- Raw page files without a `page_id`: raw records always carry an id, because this scraper writes it.
- The search service (`client.ingest`, `retrieve_context`) and the language model (`generate_answer`): a submission's outcome is the parameter `accepted`.
- The regular expressions that pull `"title"` and `"url"` out of a hit's text: they are the parameter `extract`.
- The chat loop, `input`, the `exit`/`quit` test, colorama and printing.
- A search hit without a `text` attribute: `results[0].text` raises, and the chat loop's handler prints the error for that question. Hits always carry `text`, possibly `None`.
- Logging and environment loading.
- `ingestion/ingest_basic.py` and `main.py`: the first is a loop around the service call with counters; the second dispatches on command-line flags.
- Concurrency and locking: the pipeline is sequential.
- Text.LowerChar: lower-cases ASCII letters only. Python's `str.lower()` maps all of Unicode. The proofs rely on four properties of the ASCII map that the Unicode one lacks in places: it works character by character with no context (Python lowers a final capital sigma by context), it keeps the length (`'İ'.lower()` has two characters), it is idempotent, and it maps whitespace to whitespace and other characters to other characters.
- Chunking.ChunkText: requires `size > 0`; Python's `range` raises for a zero step, and both scrapers use 200.
- Naming.Decimal: prints non-negative numbers only; page and chunk numbers start at 1.

=== FILE: chat.dfy ===
/**
 * The chat client's handling of one search response: picking the top-matching
 * chunk to display and labelling it with a title and URL.
 *
 * The search service, the language model and the regular expressions that pull
 * `"title": "..."` and `"url": "..."` out of a hit's text are not modelled; the
 * extraction is a parameter that may or may not find a value.
 */
module Chat {
  import opened Wrappers
  import opened Text

  /** One search hit: its `text` attribute, `None` when it is `None`. */
  datatype SearchResult = SearchResult(text: Option<string>)

  /** `search_response.search`: its hits (an absent attribute reads as no hits)
      and the service's aggregated text (absent or `None` as `None`). */
  datatype Search = Search(results: seq<SearchResult>, text: Option<string>)

  /** The default `max_chars`. */
  const MAX_CHARS: int := 200

  const UNKNOWN_TITLE := "Unknown title"
  const UNKNOWN_URL := "Unknown URL"
  const NO_CONTENT := "No content retrieved."

  /** Python's `t and t.strip()` on an optional string: present and not blank. */
  predicate HasText(t: Option<string>) {
    t.Some? && !IsBlank(t.value)
  }

  /** `s[:m]`: the first m characters, or for negative m all but the last -m. */
  function Head(s: string, m: int): (r: string)
    ensures |r| <= |s| && r == s[..|r|]
    ensures 0 <= m ==> |r| == if m <= |s| then m else |s|
    ensures m < 0 ==> |r| == if -m <= |s| then |s| + m else 0
  {
    if m >= 0 then (if m <= |s| then s[..m] else s)
    else if -m <= |s| then s[..|s| + m] else []
  }

  /** The text the chunk is cut from: the first hit's when it has some, else the aggregate's. */
  function Source(search: Search): (r: Option<string>)
    ensures r.Some? ==> !IsBlank(r.value)
    ensures r.Some? ==> (|search.results| > 0 && r == search.results[0].text) || r == search.text
    ensures r.None? <==> !HasText(search.text) && (|search.results| == 0 || !HasText(search.results[0].text))
    ensures |search.results| > 0 && HasText(search.results[0].text) ==> r == search.results[0].text
    ensures !(|search.results| > 0 && HasText(search.results[0].text)) ==>
              r == if HasText(search.text) then search.text else None
  {
    if |search.results| > 0 && HasText(search.results[0].text) then search.results[0].text
    else if HasText(search.text) then search.text
    else None
  }

  /** `get_top_matching_chunk(search_response, max_chars)`. */
  function TopMatchingChunk(search: Search, maxChars: int): (r: Option<string>)
    ensures r.None? <==> Source(search).None?
    ensures r.Some? ==>
              var t := Source(search).value;
              |r.value| <= |t| && r.value == t[..|r.value|]
    ensures r.Some? && 0 <= maxChars ==> |r.value| <= maxChars
    ensures r.Some? && 0 < maxChars ==> |r.value| > 0
  {
    if |search.results| > 0 && HasText(search.results[0].text) then
      Some(Head(search.results[0].text.value, maxChars))
    else if HasText(search.text) then
      Some(Head(search.text.value, maxChars))
    else
      None
  }

  /** A non-blank first hit wins, whatever the aggregate says. */
  lemma FirstHitWins(search: Search, maxChars: int)
    requires |search.results| > 0 && search.results[0].text.Some?
    requires Strip(search.results[0].text.value) != ""
    ensures TopMatchingChunk(search, maxChars) == Some(Head(search.results[0].text.value, maxChars))
  {
    StripEmptyIffBlank(search.results[0].text.value);
  }

  /** Without a usable first hit the aggregate is used, when it is not blank. */
  lemma AggregateFallback(search: Search, maxChars: int)
    requires |search.results| == 0 || search.results[0].text.None? || Strip(search.results[0].text.value) == ""
    requires search.text.Some? && Strip(search.text.value) != ""
    ensures TopMatchingChunk(search, maxChars) == Some(Head(search.text.value, maxChars))
  {
    if |search.results| > 0 && search.results[0].text.Some? {
      StripEmptyIffBlank(search.results[0].text.value);
    }
    StripEmptyIffBlank(search.text.value);
  }

  /** Nothing usable in either place: no chunk. */
  lemma NothingUsable(search: Search, maxChars: int)
    requires |search.results| == 0 || search.results[0].text.None? || Strip(search.results[0].text.value) == ""
    requires search.text.None? || Strip(search.text.value) == ""
    ensures TopMatchingChunk(search, maxChars) == None
  {
    if |search.results| > 0 && search.results[0].text.Some? {
      StripEmptyIffBlank(search.results[0].text.value);
    }
    if search.text.Some? {
      StripEmptyIffBlank(search.text.value);
    }
  }

  /** With the default bound the chunk is the source's first 200 characters, or all of it when shorter. */
  lemma DefaultChunkIsShortPrefix(search: Search)
    ensures var r := TopMatchingChunk(search, MAX_CHARS);
      r.Some? ==>
        var t := Source(search).value;
        && r.value == t[..|r.value|]
        && |r.value| == if |t| <= 200 then |t| else 200
  {
  }

  /** What the chat loop shows for one question. */
  datatype Reply =
    | NoRelevantContent
    | Shown(chunk: string, title: string, url: string)

  /** One pass of the chat loop up to the answer: the early exit when the response or its
      aggregated text is missing or empty, then the chunk and its source label. `extract(field, text)`
      stands for the regular expression that finds `"field": "value"` in a hit's text. */
  function Respond(response: Option<Search>, extract: (string, string) -> Option<string>): (r: Reply)
    ensures r.NoRelevantContent? <==> response.None? || response.value.text.None? || response.value.text.value == ""
    ensures r.Shown? && |response.value.results| == 0 ==> r.title == UNKNOWN_TITLE && r.url == UNKNOWN_URL
  {
    match response
    case None => NoRelevantContent
    case Some(search) =>
      if search.text.None? || search.text.value == "" then NoRelevantContent
      else
        var chunk := TopMatchingChunk(search, MAX_CHARS);
        var shown := if chunk.Some? && chunk.value != "" then chunk.value else NO_CONTENT;
        var raw := if |search.results| > 0 then search.results[0].text.GetOr("") else "";
        var title := if |search.results| > 0 then extract("title", raw).GetOr(UNKNOWN_TITLE) else UNKNOWN_TITLE;
        var url := if |search.results| > 0 then extract("url", raw).GetOr(UNKNOWN_URL) else UNKNOWN_URL;
        Shown(shown, title, url)
  }

  /** A whitespace-only aggregate gets past the early check, yet without a usable hit
      the placeholder is shown in place of a chunk. */
  lemma BlankAggregateShowsPlaceholder(extract: (string, string) -> Option<string>)
    ensures Respond(Some(Search([], Some(" "))), extract) == Shown(NO_CONTENT, UNKNOWN_TITLE, UNKNOWN_URL)
  {
    assert IsSpace(" "[0]);
  }

  /** A non-blank aggregate with no hits is shown, labelled with both defaults. */
  lemma NoHitsShowAggregate(text: string, extract: (string, string) -> Option<string>)
    requires !IsBlank(text)
    ensures Respond(Some(Search([], Some(text))), extract) == Shown(Head(text, MAX_CHARS), UNKNOWN_TITLE, UNKNOWN_URL)
  {
  }
}

=== FILE: chunking.dfy ===
/**
 * `chunk_text`: the page's words cut into consecutive groups of at most
 * `size` words, each group re-joined with single spaces and tagged with the
 * word offset it starts at (`range(0, len(words), size)`).
 */
module Chunking {
  import opened Text

  /** The chunk size both scrapers use. */
  const CHUNK_SIZE: nat := 200

  function Min(a: int, b: int): int {
    if a <= b then a else b
  }

  /** The words of a sequence of word groups, one group after the other. */
  function Flatten(gs: seq<seq<string>>): seq<string> {
    if |gs| == 0 then [] else gs[0] + Flatten(gs[1..])
  }

  /** The chunk the loop yields at word offset `off`: the offset and the next `size` words joined. */
  function ChunkAt(words: seq<string>, size: nat, off: nat): (nat, string)
    requires off < |words|
  {
    (off, Join(words[off .. Min(off + size, |words|)]))
  }

  /** `cs` is what the loop yields from offset `i` on: one chunk per offset
      i, i + size, ... below |words|, each holding the words from its offset. */
  predicate ChunkedFrom(words: seq<string>, size: nat, i: nat, cs: seq<(nat, string)>) {
    && (|cs| == 0 <==> i >= |words|)
    && (|cs| > 0 ==> cs[0].0 == i)
    && (forall k | 0 <= k < |cs| - 1 :: cs[k + 1].0 == cs[k].0 + size)
    && (forall k | 0 <= k < |cs| :: i <= cs[k].0 < |words| && cs[k] == ChunkAt(words, size, cs[k].0))
    && (|cs| > 0 ==> cs[|cs| - 1].0 + size >= |words|)
  }

  /** The chunks produced by the loop iterations that start at offset `i`. */
  function ChunksFrom(words: seq<string>, size: nat, i: nat): (cs: seq<(nat, string)>)
    requires size > 0
    decreases |words| - i
  {
    if i >= |words| then [] else [ChunkAt(words, size, i)] + ChunksFrom(words, size, i + size)
  }

  /** The loop yields one chunk per offset i, i + size, ... below |words|, each holding the words from its offset. */
  lemma {:induction false} ChunksFromShape(words: seq<string>, size: nat, i: nat)
    requires size > 0
    ensures ChunkedFrom(words, size, i, ChunksFrom(words, size, i))
    decreases |words| - i
  {
    if i < |words| {
      var rest := ChunksFrom(words, size, i + size);
      ChunksFromShape(words, size, i + size);
      var cs := [ChunkAt(words, size, i)] + rest;
      assert cs == ChunksFrom(words, size, i);
      assert forall k | 1 <= k < |cs| :: cs[k] == rest[k - 1];
    }
  }

  /** Offsets that start at 0 and step by `size` are the multiples of `size`. */
  lemma {:induction false} SteppedOffsets(cs: seq<(nat, string)>, size: nat, k: nat)
    requires |cs| > 0 && cs[0].0 == 0
    requires forall j | 0 <= j < |cs| - 1 :: cs[j + 1].0 == cs[j].0 + size
    requires k < |cs|
    ensures cs[k].0 == k * size
  {
    if k > 0 {
      SteppedOffsets(cs, size, k - 1);
      assert cs[k].0 == cs[k - 1].0 + size;
    }
  }

  /** The word groups of a chunk list, chunk by chunk. */
  function ChunkWords(cs: seq<(nat, string)>): (gs: seq<seq<string>>)
    ensures |gs| == |cs|
  {
    seq(|cs|, k requires 0 <= k < |cs| => Words(cs[k].1))
  }

  /** The chunk texts of a chunk list, without their offsets. */
  function ChunkTexts(cs: seq<(nat, string)>): (ts: seq<string>)
    ensures |ts| == |cs|
  {
    seq(|cs|, k requires 0 <= k < |cs| => cs[k].1)
  }

  /** `chunk_text(text, size)` of the deduplicating scraper: (offset, chunk) pairs. */
  function ChunkText(text: string, size: nat): (cs: seq<(nat, string)>)
    requires size > 0
    ensures |cs| == 0 <==> Words(text) == []
    ensures forall k | 0 <= k < |cs| :: cs[k].0 == k * size && cs[k].0 / size == k
  {
    var cs := ChunksFrom(Words(text), size, 0);
    ChunksFromShape(Words(text), size, 0);
    ChunkOffsets(Words(text), size, cs);
    cs
  }

  /** Each chunk holds the text's words from its offset on: `size` of them, fewer only in the last chunk. */
  lemma ChunkTextContents(text: string, size: nat)
    requires size > 0
    ensures var cs := ChunkText(text, size);
      && (forall k | 0 <= k < |cs| ::
            && cs[k].0 < |Words(text)|
            && Words(cs[k].1) == Words(text)[cs[k].0 .. Min(cs[k].0 + size, |Words(text)|)])
      && (forall k | 0 <= k < |cs| :: 1 <= |Words(cs[k].1)| <= size)
      && (forall k | 0 <= k < |cs| - 1 :: |Words(cs[k].1)| == size)
  {
    ChunksFromShape(Words(text), size, 0);
    ChunkContents(Words(text), size, ChunkText(text, size));
  }

  /** The chunk offsets are 0, size, 2·size, ..., and offset // size is the chunk's position. */
  lemma ChunkOffsets(words: seq<string>, size: nat, cs: seq<(nat, string)>)
    requires size > 0 && ChunkedFrom(words, size, 0, cs)
    ensures forall k | 0 <= k < |cs| :: cs[k].0 == k * size && cs[k].0 / size == k
  {
    forall k | 0 <= k < |cs|
      ensures cs[k].0 == k * size && cs[k].0 / size == k
    {
      SteppedOffsets(cs, size, k);
      MulDiv(k, size);
    }
  }

  /** Each chunk holds the next `size` words (fewer only for the last one). */
  lemma ChunkContents(words: seq<string>, size: nat, cs: seq<(nat, string)>)
    requires size > 0 && ChunkedFrom(words, size, 0, cs)
    requires forall k | 0 <= k < |words| :: IsWord(words[k])
    ensures forall k | 0 <= k < |cs| ::
              && cs[k].0 < |words|
              && Words(cs[k].1) == words[cs[k].0 .. Min(cs[k].0 + size, |words|)]
    ensures forall k | 0 <= k < |cs| :: 1 <= |Words(cs[k].1)| <= size
    ensures forall k | 0 <= k < |cs| - 1 :: |Words(cs[k].1)| == size
  {
    forall k | 0 <= k < |cs|
      ensures Words(cs[k].1) == words[cs[k].0 .. Min(cs[k].0 + size, |words|)]
    {
      WordsOfSlice(words, cs[k].0, Min(cs[k].0 + size, |words|));
    }
    forall k | 0 <= k < |cs| - 1
      ensures cs[k].0 + size <= |words|
    {
      assert cs[k + 1].0 == cs[k].0 + size;
    }
  }

  lemma MulDiv(k: nat, n: nat)
    requires n > 0
    ensures (k * n) / n == k
  {
    var q := (k * n) / n;
    var r := (k * n) % n;
    assert (k - q) * n == r;
    if k - q >= 1 {
      assert false;
    } else if k - q <= -1 {
      assert false;
    }
  }

  /** A slice of a word list re-joined and split again is that slice. */
  lemma WordsOfSlice(words: seq<string>, a: nat, b: nat)
    requires a <= b <= |words|
    requires forall k | 0 <= k < |words| :: IsWord(words[k])
    ensures Words(Join(words[a..b])) == words[a..b]
  {
    WordsJoin(words[a..b]);
  }

  lemma ChunkWordsCons(cs: seq<(nat, string)>)
    requires |cs| > 0
    ensures ChunkWords(cs) == [Words(cs[0].1)] + ChunkWords(cs[1..])
  {
  }

  lemma FlattenCons(g: seq<string>, gs: seq<seq<string>>)
    ensures Flatten([g] + gs) == g + Flatten(gs)
  {
    assert ([g] + gs)[1..] == gs;
  }

  /** Dropping the first chunk leaves the chunks from the next offset. */
  lemma {:induction false} ChunkedFromTail(words: seq<string>, size: nat, i: nat, cs: seq<(nat, string)>)
    requires ChunkedFrom(words, size, i, cs) && |cs| > 1
    ensures ChunkedFrom(words, size, i + size, cs[1..])
  {
    var rest := cs[1..];
    forall k | 0 <= k < |rest|
      ensures i + size <= rest[k].0
    {
      OffsetsIncrease(words, size, i, cs, k + 1);
    }
  }

  lemma {:induction false} OffsetsIncrease(words: seq<string>, size: nat, i: nat, cs: seq<(nat, string)>, k: nat)
    requires ChunkedFrom(words, size, i, cs) && 1 <= k < |cs|
    ensures i + size <= cs[k].0
  {
    if k > 1 {
      OffsetsIncrease(words, size, i, cs, k - 1);
      assert cs[k].0 == cs[k - 1].0 + size;
    }
  }

  /** The first chunk from offset `i` holds the words from `i` up to where the next chunk starts. */
  lemma FirstChunkWords(words: seq<string>, size: nat, i: nat, cs: seq<(nat, string)>)
    requires ChunkedFrom(words, size, i, cs) && |cs| > 0
    requires forall k | 0 <= k < |words| :: IsWord(words[k])
    ensures i <= Min(i + size, |words|) <= |words|
    ensures Words(cs[0].1) == words[i .. Min(i + size, |words|)]
    ensures |cs| > 1 ==> Min(i + size, |words|) == i + size
    ensures |cs| == 1 ==> Min(i + size, |words|) == |words|
  {
    assert cs[0] == ChunkAt(words, size, i);
    WordsOfSlice(words, i, Min(i + size, |words|));
    if |cs| > 1 {
      assert cs[1].0 == i + size < |words|;
    }
  }

  /** A first group followed by groups covering the rest covers the whole. */
  lemma CoverCons(words: seq<string>, i: nat, j: nat, cs: seq<(nat, string)>)
    requires i <= j <= |words| && |cs| > 0
    requires Words(cs[0].1) == words[i..j]
    requires Flatten(ChunkWords(cs[1..])) == words[j..]
    ensures Flatten(ChunkWords(cs)) == words[i..]
  {
    ChunkWordsCons(cs);
    FlattenCons(words[i..j], ChunkWords(cs[1..]));
    assert words[i..] == words[i..j] + words[j..];
  }

  /** The chunks from offset `i` cover `words[i..]` exactly once, in order. */
  lemma {:induction false} ChunksCover(words: seq<string>, size: nat, i: nat, cs: seq<(nat, string)>)
    requires size > 0 && i <= |words| && ChunkedFrom(words, size, i, cs)
    requires forall k | 0 <= k < |words| :: IsWord(words[k])
    ensures Flatten(ChunkWords(cs)) == words[i..]
    decreases |cs|
  {
    if |cs| > 0 {
      var j := Min(i + size, |words|);
      FirstChunkWords(words, size, i, cs);
      if |cs| > 1 {
        ChunkedFromTail(words, size, i, cs);
        ChunksCover(words, size, i + size, cs[1..]);
      } else {
        assert ChunkWords(cs[1..]) == [];
      }
      CoverCons(words, i, j, cs);
    }
  }

  /** Chunk coverage: the chunks' words, chunk after chunk, are exactly the text's words. */
  lemma ChunkTextCoversWords(text: string, size: nat)
    requires size > 0
    ensures Flatten(ChunkWords(ChunkText(text, size))) == Words(text)
  {
    ChunksFromShape(Words(text), size, 0);
    ChunksCover(Words(text), size, 0, ChunkText(text, size));
  }

  lemma {:induction false} JoinAppend(a: seq<string>, b: seq<string>)
    requires |a| > 0 && |b| > 0
    ensures Join(a + b) == Join(a) + " " + Join(b)
  {
    if |a| == 1 {
      assert (a + b)[1..] == b;
    } else {
      assert (a + b)[1..] == a[1..] + b;
      JoinAppend(a[1..], b);
    }
  }

  /** Each group joined with single spaces. */
  function JoinEach(gs: seq<seq<string>>): (ts: seq<string>)
    ensures |ts| == |gs|
  {
    seq(|gs|, k requires 0 <= k < |gs| => Join(gs[k]))
  }

  lemma {:induction false} JoinFlatten(gs: seq<seq<string>>)
    requires forall k | 0 <= k < |gs| :: |gs[k]| > 0
    ensures Join(Flatten(gs)) == Join(JoinEach(gs))
  {
    if |gs| == 1 {
      assert gs[1..] == [];
      assert Flatten(gs) == gs[0];
      assert JoinEach(gs) == [Join(gs[0])];
    } else if |gs| > 1 {
      JoinFlatten(gs[1..]);
      assert JoinEach(gs)[1..] == JoinEach(gs[1..]);
      assert |Flatten(gs[1..])| > 0 by { FlattenCons(gs[1], gs[2..]); assert gs[1..] == [gs[1]] + gs[2..]; }
      JoinAppend(gs[0], Flatten(gs[1..]));
    }
  }

  lemma ChunkTextsAreJoinedGroups(words: seq<string>, size: nat, cs: seq<(nat, string)>)
    requires size > 0 && ChunkedFrom(words, size, 0, cs)
    requires forall k | 0 <= k < |words| :: IsWord(words[k])
    ensures ChunkTexts(cs) == JoinEach(ChunkWords(cs))
  {
    forall k | 0 <= k < |cs|
      ensures Join(Words(cs[k].1)) == cs[k].1
    {
      WordsOfSlice(words, cs[k].0, Min(cs[k].0 + size, |words|));
    }
  }

  /** The chunk texts joined by single spaces give the text's words joined by single spaces. */
  lemma ChunkTextsJoinToWords(text: string, size: nat)
    requires size > 0
    ensures Join(ChunkTexts(ChunkText(text, size))) == Join(Words(text))
  {
    var cs := ChunkText(text, size);
    var gs := ChunkWords(cs);
    ChunksFromShape(Words(text), size, 0);
    ChunkTextContents(text, size);
    ChunkTextCoversWords(text, size);
    JoinFlatten(gs);
    ChunkTextsAreJoinedGroups(Words(text), size, cs);
  }

  /** A page of 450 words gives three chunks of 200, 200 and 50 words at indices 0, 1, 2. */
  lemma FourHundredFiftyWords(text: string)
    requires |Words(text)| == 450
    ensures |ChunkText(text, CHUNK_SIZE)| == 3
    ensures |Words(ChunkText(text, CHUNK_SIZE)[0].1)| == 200
    ensures |Words(ChunkText(text, CHUNK_SIZE)[1].1)| == 200
    ensures |Words(ChunkText(text, CHUNK_SIZE)[2].1)| == 50
    ensures ChunkText(text, CHUNK_SIZE)[0].0 / CHUNK_SIZE == 0
    ensures ChunkText(text, CHUNK_SIZE)[1].0 / CHUNK_SIZE == 1
    ensures ChunkText(text, CHUNK_SIZE)[2].0 / CHUNK_SIZE == 2
  {
    var cs := ChunkText(text, CHUNK_SIZE);
    ChunkTextContents(text, CHUNK_SIZE);
    var words := Words(text);
    var all := ChunksFrom(words, CHUNK_SIZE, 0);
    ChunksFromShape(words, CHUNK_SIZE, 0);
    assert cs == all;
    assert |cs| > 2 by {
      assert cs[|cs| - 1].0 + CHUNK_SIZE >= 450;
    }
  }
}

=== FILE: crawl_basic.dfy ===
/**
 * The basic scraper's driver: for the i-th crawled page with content it writes
 * `page_{i+1}.json` to the raw directory and `page_{i+1}_chunk_{j+1}.json` for
 * its j-th chunk to the cleaned directory, overwriting whatever was there. It
 * keeps no ids and no hashes.
 *
 * After each page it reports the chunk count through the chunk-loop variable,
 * which Python leaves bound to its last value. When a page's cleaned content
 * has no words the loop binds nothing: a stale count is reported if an earlier
 * page bound it, and if none did the run stops with an error after that page's
 * raw file was written. `lastChunk` and `crashed` model exactly that.
 */
module CrawlBasic {
  import opened Wrappers
  import opened Text
  import opened Chunking
  import opened Naming
  import opened Fetch

  /** One JSON file of either directory: url, title, content. */
  datatype FileRecord = FileRecord(url: string, title: string, content: string)

  /** A directory: file to contents. Files are keyed by the numbers their names encode,
      which `RenderInjective` shows loses nothing. */
  type Store = map<FileName, FileRecord>

  /** How a page's content is cut into chunk texts. */
  type Chunker = string -> seq<string>

  /** `chunk_text(clean_text(content))` of the basic scraper: the chunk texts, without offsets. */
  function BasicChunks(content: string): seq<string> {
    ChunkTexts(ChunkText(CleanText(content), CHUNK_SIZE))
  }

  /** The chunk texts of a page: none when it has no content. */
  function ChunksOf(chunker: Chunker, p: FetchedPage): seq<string> {
    match Content(p)
    case None => []
    case Some(content) => chunker(content)
  }

  /** The run's state: both directories, the chunk-loop variable `j`, and whether the run stopped. */
  datatype BasicState = BasicState(raw: Store, clean: Store, lastChunk: Option<nat>, crashed: bool)

  /** `getattr(page, "title", f"Page {i + 1}")`. */
  function Title(p: FetchedPage, i: nat): string {
    p.title.GetOr(PageTitle(i + 1))
  }

  /** The cleaned-file names of chunks k+1 .. m of page n. */
  function ChunkNames(n: nat, k: nat, m: nat): set<FileName> {
    set c: nat | k < c <= m :: ChunkFile(n, c)
  }

  /** The chunk loop from chunk k on: chunk j goes to `page_{n}_chunk_{j+1}.json`. */
  function WriteChunks(clean: Store, n: nat, url: string, title: string, ts: seq<string>, k: nat): (r: Store)
    requires k <= |ts|
    ensures forall c | k < c <= |ts| ::
              ChunkFile(n, c) in r && r[ChunkFile(n, c)] == FileRecord(url, title, ts[c - 1])
    ensures forall f | f in clean && f !in ChunkNames(n, k, |ts|) :: f in r && r[f] == clean[f]
    ensures r.Keys == clean.Keys + ChunkNames(n, k, |ts|)
    decreases |ts| - k
  {
    if k == |ts| then clean
    else
      var f := ChunkFile(n, k + 1);
      assert ChunkNames(n, k, |ts|) == {f} + ChunkNames(n, k + 1, |ts|);
      WriteChunks(clean[f := FileRecord(url, title, ts[k])], n, url, title, ts, k + 1)
  }

  /** One iteration of `main`'s page loop, for the page at position i. */
  function BasicStep(chunker: Chunker, st: BasicState, i: nat, p: FetchedPage): (r: BasicState)
    ensures Content(p).None? ==> r == st
    ensures Content(p).Some? ==>
              var ts := ChunksOf(chunker, p);
              && r.raw == st.raw[PageFile(i + 1) := FileRecord(Url(p), Title(p, i), Content(p).value)]
              && r.clean.Keys == st.clean.Keys + ChunkNames(i + 1, 0, |ts|)
              && (|ts| > 0 ==> r.lastChunk == Some(|ts| - 1) && !r.crashed)
              && (|ts| == 0 ==> r.lastChunk == st.lastChunk && r.crashed == st.lastChunk.None?)
  {
    match Content(p)
    case None => st
    case Some(content) =>
      var url := Url(p);
      var title := Title(p, i);
      var ts := ChunksOf(chunker, p);
      var raw := st.raw[PageFile(i + 1) := FileRecord(url, title, content)];
      var clean := WriteChunks(st.clean, i + 1, url, title, ts, 0);
      var last := if |ts| > 0 then Some(|ts| - 1) else st.lastChunk;
      BasicState(raw, clean, last, last.None?)
  }

  /** The page loop from position i on; it ends early when a page stopped the run. */
  function BasicFold(chunker: Chunker, st: BasicState, pages: seq<FetchedPage>, i: nat): (r: BasicState)
    ensures st.crashed ==> r == st
    ensures st.lastChunk.Some? && !st.crashed ==> r.lastChunk.Some? && !r.crashed
    decreases |pages| - i
  {
    if i >= |pages| || st.crashed then st
    else BasicFold(chunker, BasicStep(chunker, st, i, pages[i]), pages, i + 1)
  }

  /** One run of the basic scraper over the pages the crawler returned. */
  function BasicRun(raw: Store, clean: Store, pages: seq<FetchedPage>): BasicState {
    BasicFold(BasicChunks, BasicState(raw, clean, None, false), pages, 0)
  }

  // ------------------------------------------------------------------
  // What a run writes
  // ------------------------------------------------------------------

  /** Chunk number c of `ts` (counting from 1) is in file `page_{n}_chunk_{c}.json`, with the page's URL and title. */
  predicate ChunksWritten(clean: Store, n: nat, url: string, title: string, ts: seq<string>) {
    forall c | 0 < c <= |ts| ::
      ChunkFile(n, c) in clean && clean[ChunkFile(n, c)] == FileRecord(url, title, ts[c - 1])
  }

  /** Page i's raw file and chunk files hold what the loop wrote for it. */
  predicate PageWritten(chunker: Chunker, st: BasicState, i: nat, p: FetchedPage) {
    Content(p).Some? ==>
      && PageFile(i + 1) in st.raw
      && st.raw[PageFile(i + 1)] == FileRecord(Url(p), Title(p, i), Content(p).value)
      && ChunksWritten(st.clean, i + 1, Url(p), Title(p, i), ChunksOf(chunker, p))
  }

  /** The step for page i writes everything page i needs. */
  lemma StepWrites(chunker: Chunker, st: BasicState, i: nat, p: FetchedPage)
    ensures PageWritten(chunker, BasicStep(chunker, st, i, p), i, p)
  {
  }

  /** Writing page n's chunks leaves the chunk files of another page m alone. */
  lemma WriteChunksKeepsOtherPage(clean: Store, n: nat, url: string, title: string, ts: seq<string>,
                                  m: nat, url': string, title': string, cs: seq<string>)
    requires m != n && ChunksWritten(clean, m, url', title', cs)
    ensures ChunksWritten(WriteChunks(clean, n, url, title, ts, 0), m, url', title', cs)
  {
    var r := WriteChunks(clean, n, url, title, ts, 0);
    forall c | 0 < c <= |cs|
      ensures ChunkFile(m, c) in r && r[ChunkFile(m, c)] == FileRecord(url', title', cs[c - 1])
    {
      assert ChunkFile(m, c) !in ChunkNames(n, 0, |ts|);
    }
  }

  /** The step for page i leaves the files of another page k alone. */
  lemma StepKeepsOtherPage(chunker: Chunker, st: BasicState, i: nat, p: FetchedPage, k: nat, q: FetchedPage)
    requires k != i && PageWritten(chunker, st, k, q)
    ensures PageWritten(chunker, BasicStep(chunker, st, i, p), k, q)
  {
    if Content(p).Some? && Content(q).Some? {
      ContentStepKeepsOtherPage(chunker, st, i, p, k, q);
    }
  }

  /** What the step for a page with content leaves in both directories. */
  lemma StepStores(chunker: Chunker, st: BasicState, i: nat, p: FetchedPage)
    requires Content(p).Some?
    ensures var r := BasicStep(chunker, st, i, p);
      && r.raw == st.raw[PageFile(i + 1) := FileRecord(Url(p), Title(p, i), Content(p).value)]
      && r.clean == WriteChunks(st.clean, i + 1, Url(p), Title(p, i), ChunksOf(chunker, p), 0)
  {
  }

  lemma ContentStepKeepsOtherPage(chunker: Chunker, st: BasicState, i: nat, p: FetchedPage, k: nat, q: FetchedPage)
    requires Content(p).Some? && Content(q).Some?
    requires k != i && PageWritten(chunker, st, k, q)
    ensures PageWritten(chunker, BasicStep(chunker, st, i, p), k, q)
  {
    StepStores(chunker, st, i, p);
    WriteChunksKeepsOtherPage(st.clean, i + 1, Url(p), Title(p, i), ChunksOf(chunker, p),
                              k + 1, Url(q), Title(q, k), ChunksOf(chunker, q));
  }

  /** Pages already processed keep their files through the rest of the run. */
  lemma {:induction false} FoldKeepsEarlierPage(chunker: Chunker, st: BasicState, pages: seq<FetchedPage>, i: nat,
                                                k: nat, q: FetchedPage)
    requires k < i && PageWritten(chunker, st, k, q)
    ensures PageWritten(chunker, BasicFold(chunker, st, pages, i), k, q)
    decreases |pages| - i
  {
    if i < |pages| && !st.crashed {
      StepKeepsOtherPage(chunker, st, i, pages[i], k, q);
      FoldKeepsEarlierPage(chunker, BasicStep(chunker, st, i, pages[i]), pages, i + 1, k, q);
    }
  }

  /** A run that does not stop writes, for every page with content, its raw file and
      one chunk file per chunk, with the page's URL and title. */
  lemma {:induction false} FoldWritesEveryPage(chunker: Chunker, st: BasicState, pages: seq<FetchedPage>, i: nat)
    requires i <= |pages|
    ensures var r := BasicFold(chunker, st, pages, i);
      !r.crashed ==> forall k | i <= k < |pages| :: PageWritten(chunker, r, k, pages[k])
    decreases |pages| - i
  {
    if i < |pages| && !st.crashed {
      var s1 := BasicStep(chunker, st, i, pages[i]);
      assert BasicFold(chunker, st, pages, i) == BasicFold(chunker, s1, pages, i + 1);
      StepWrites(chunker, st, i, pages[i]);
      FoldWritesEveryPage(chunker, s1, pages, i + 1);
      FoldKeepsEarlierPage(chunker, s1, pages, i + 1, i, pages[i]);
    }
  }

  /** The basic scraper's output, when the run completes. */
  lemma BasicRunWrites(raw: Store, clean: Store, pages: seq<FetchedPage>)
    ensures var r := BasicRun(raw, clean, pages);
      !r.crashed ==> forall k | 0 <= k < |pages| :: PageWritten(BasicChunks, r, k, pages[k])
  {
    FoldWritesEveryPage(BasicChunks, BasicState(raw, clean, None, false), pages, 0);
  }

  // ------------------------------------------------------------------
  // When the run stops
  // ------------------------------------------------------------------

  /** When every page with content has at least one chunk, the run never stops early. */
  lemma {:induction false} NoCrashWhenEveryPageHasChunks(chunker: Chunker, st: BasicState, pages: seq<FetchedPage>, i: nat)
    requires !st.crashed
    requires forall k | i <= k < |pages| && Content(pages[k]).Some? :: |ChunksOf(chunker, pages[k])| > 0
    ensures !BasicFold(chunker, st, pages, i).crashed
    decreases |pages| - i
  {
    if i < |pages| {
      NoCrashWhenEveryPageHasChunks(chunker, BasicStep(chunker, st, i, pages[i]), pages, i + 1);
    }
  }

  /** The first page with content has no words: its raw file is written, then the run
      stops and no later page is processed. */
  lemma BlankFirstPageStopsRun(chunker: Chunker, st: BasicState, pages: seq<FetchedPage>)
    requires st == BasicState(st.raw, st.clean, None, false)
    requires |pages| > 0 && Content(pages[0]).Some? && ChunksOf(chunker, pages[0]) == []
    ensures var r := BasicFold(chunker, st, pages, 0);
      && r.crashed
      && r == BasicStep(chunker, st, 0, pages[0])
      && PageFile(1) in r.raw
  {
    var s1 := BasicStep(chunker, st, 0, pages[0]);
    assert s1.crashed;
  }

  /** The basic chunker yields nothing exactly for content without words. */
  lemma BasicChunksEmptyIffBlank(content: string)
    ensures BasicChunks(content) == [] <==> Words(content) == []
  {
    CleanTextKeepsWords(content);
  }

  /** A first page whose content is a bare newline stops the basic scraper. */
  lemma NewlineOnlyFirstPageStopsRun(raw: Store, clean: Store, pages: seq<FetchedPage>)
    requires |pages| > 0 && Content(pages[0]) == Some("\n")
    ensures BasicRun(raw, clean, pages).crashed
  {
    assert Words("\n"[1..]) == [];
    BasicChunksEmptyIffBlank("\n");
    BlankFirstPageStopsRun(BasicChunks, BasicState(raw, clean, None, false), pages);
  }
}

=== FILE: crawl_dedup.dfy ===
/**
 * The deduplicating scraper's driver: one crawl pass folded over the fetched
 * pages. The Page Store is the raw directory (file `page_{n}.json` holds
 * record n); the Chunk Store is the cleaned directory, content-addressed
 * (file `{chunk_hash}.json`). A page is written only when its id (a digest
 * of the URL) is new; every page with content is re-chunked, and a chunk is
 * written only when no file with its hash exists yet.
 */
module CrawlDedup {
  import opened Wrappers
  import opened Text
  import opened Chunking
  import opened Identity
  import opened Naming
  import opened Fetch

  /** The scraper titles every record `f"Page {n}"`; a record keeps the number n
      (`Naming.PageTitleInjective`: `PageTitle(n)` determines n). */
  datatype PageRecord = PageRecord(pageId: string, url: string, titleNumber: nat, content: string)

  datatype ChunkRecord = ChunkRecord(
    pageId: string,
    url: string,
    titleNumber: nat,
    chunkIndex: nat,
    chunkHash: string,
    content: string)

  /** The raw directory: file number n stands for `page_{n}.json`. */
  type RawStore = map<nat, PageRecord>

  /** The cleaned directory: key h stands for `{h}.json`. */
  type ChunkStore = map<string, ChunkRecord>

  /** The driver's state: the page ids seen, the raw-page counter, and both stores. */
  datatype CrawlState = CrawlState(knownIds: set<string>, rawIndex: nat, raw: RawStore, chunks: ChunkStore)

  /** The page ids read back from the raw directory at the start of a pass. */
  function KnownIds(raw: RawStore): set<string> {
    set n | n in raw :: raw[n].pageId
  }

  /** No two raw files hold the same page id. */
  predicate DistinctIds(raw: RawStore) {
    forall m, n | m in raw && n in raw && raw[m].pageId == raw[n].pageId :: m == n
  }

  /** A raw directory as this scraper leaves it: files `page_1` .. `page_N`, distinct ids. */
  predicate RawStoreWF(raw: RawStore) {
    && (forall n | n in raw :: 1 <= n <= |raw|)
    && DistinctIds(raw)
  }

  /** Content addressing: every chunk file is named after the hash it records. */
  predicate ChunkStoreWF(chunks: ChunkStore) {
    forall h | h in chunks :: chunks[h].chunkHash == h
  }

  /** The pass state is consistent with its raw directory. */
  predicate StateWF(st: CrawlState) {
    && (forall n | n in st.raw :: 1 <= n <= st.rawIndex)
    && |st.raw| == st.rawIndex
    && DistinctIds(st.raw)
    && st.knownIds == KnownIds(st.raw)
  }

  /** The state at the start of `main`: ids loaded from disk, `raw_index = len(existing_page_ids)`. */
  function StartState(raw: RawStore, chunks: ChunkStore): CrawlState {
    var ids := KnownIds(raw);
    CrawlState(ids, |ids|, raw, chunks)
  }

  /** How a page's content is cut into (offset, chunk) pairs. */
  type Chunker = string -> seq<(nat, string)>

  /** The chunks of a page's content: `chunk_text(clean_text(content))`. */
  function PageChunks(content: string): seq<(nat, string)> {
    ChunkText(CleanText(content), CHUNK_SIZE)
  }

  /** The hashes of a list of chunks. */
  function ChunkHashes(d: Digests, cs: seq<(nat, string)>): set<string> {
    set k | 0 <= k < |cs| :: ChunkHash(d, cs[k].1)
  }

  /** `rec` is the record the driver builds for one of the chunks in `cs`. */
  predicate RecordOfSomeChunk(d: Digests, rec: ChunkRecord, cs: seq<(nat, string)>) {
    exists k | 0 <= k < |cs| ::
      && rec.content == cs[k].1
      && rec.chunkIndex == cs[k].0 / CHUNK_SIZE
      && rec.chunkHash == ChunkHash(d, cs[k].1)
  }

  lemma RecordOfHead(d: Digests, rec: ChunkRecord, cs: seq<(nat, string)>)
    requires |cs| > 0
    requires rec.content == cs[0].1 && rec.chunkIndex == cs[0].0 / CHUNK_SIZE && rec.chunkHash == ChunkHash(d, cs[0].1)
    ensures RecordOfSomeChunk(d, rec, cs)
  {
  }

  lemma RecordOfTail(d: Digests, rec: ChunkRecord, cs: seq<(nat, string)>)
    requires |cs| > 0 && RecordOfSomeChunk(d, rec, cs[1..])
    ensures RecordOfSomeChunk(d, rec, cs)
  {
    var k :| 0 <= k < |cs[1..]| && rec.content == cs[1..][k].1
             && rec.chunkIndex == cs[1..][k].0 / CHUNK_SIZE && rec.chunkHash == ChunkHash(d, cs[1..][k].1);
    assert cs[1..][k] == cs[k + 1];
  }

  lemma ChunkHashesCons(d: Digests, cs: seq<(nat, string)>)
    requires |cs| > 0
    ensures ChunkHashes(d, cs) == {ChunkHash(d, cs[0].1)} + ChunkHashes(d, cs[1..])
  {
    var tail := cs[1..];
    forall h | h in ChunkHashes(d, cs)
      ensures h in {ChunkHash(d, cs[0].1)} + ChunkHashes(d, tail)
    {
      var k :| 0 <= k < |cs| && h == ChunkHash(d, cs[k].1);
      if k > 0 {
        assert cs[k] == tail[k - 1];
      }
    }
    forall h | h in ChunkHashes(d, tail)
      ensures h in ChunkHashes(d, cs)
    {
      var k :| 0 <= k < |tail| && h == ChunkHash(d, tail[k].1);
      assert tail[k] == cs[k + 1];
    }
  }

  /** The inner loop of `main`: write each chunk under its hash unless that file exists. */
  function StoreChunks(d: Digests, store: ChunkStore, pageId: string, url: string, title: nat,
                       cs: seq<(nat, string)>): (r: ChunkStore)
    ensures forall h | h in store :: h in r && r[h] == store[h]
    ensures r.Keys == store.Keys + ChunkHashes(d, cs)
    ensures ChunkStoreWF(store) ==> ChunkStoreWF(r)
    decreases |cs|
  {
    if |cs| == 0 then store
    else
      var h := ChunkHash(d, cs[0].1);
      var store' := if h in store then store
                    else store[h := ChunkRecord(pageId, url, title, cs[0].0 / CHUNK_SIZE, h, cs[0].1)];
      ChunkHashesCons(d, cs);
      StoreChunks(d, store', pageId, url, title, cs[1..])
  }

  /** Every chunk file the inner loop creates is named after its hash, carries the
      page's id, URL and title, and holds one of the page's chunks with its index. */
  lemma {:induction false} StoreChunksRecords(d: Digests, store: ChunkStore, pageId: string, url: string, title: nat,
                                              cs: seq<(nat, string)>)
    ensures var r := StoreChunks(d, store, pageId, url, title, cs);
      forall h | h in r && h !in store ::
        && r[h].chunkHash == h
        && r[h].pageId == pageId && r[h].url == url && r[h].titleNumber == title
        && RecordOfSomeChunk(d, r[h], cs)
    decreases |cs|
  {
    if |cs| > 0 {
      var h := ChunkHash(d, cs[0].1);
      var store' := if h in store then store
                    else store[h := ChunkRecord(pageId, url, title, cs[0].0 / CHUNK_SIZE, h, cs[0].1)];
      StoreChunksRecords(d, store', pageId, url, title, cs[1..]);
      var r := StoreChunks(d, store', pageId, url, title, cs[1..]);
      assert r == StoreChunks(d, store, pageId, url, title, cs);
      forall g | g in r && g !in store
        ensures r[g].chunkHash == g
        ensures r[g].pageId == pageId && r[g].url == url && r[g].titleNumber == title
        ensures RecordOfSomeChunk(d, r[g], cs)
      {
        if g in store' {
          assert g == h && r[g] == store'[h];
          RecordOfHead(d, r[g], cs);
        } else {
          RecordOfTail(d, r[g], cs);
        }
      }
    }
  }

  /** One iteration of `main`'s page loop. */
  function CrawlStep(d: Digests, chunker: Chunker, st: CrawlState, p: FetchedPage): (r: CrawlState)
    ensures Content(p).None? ==> r == st
    ensures Content(p).Some? ==>
              var pid := PageId(d, Url(p));
              && r.knownIds == st.knownIds + {pid}
              && (pid !in st.knownIds ==>
                    && r.rawIndex == st.rawIndex + 1
                    && r.raw == st.raw[st.rawIndex + 1 := PageRecord(pid, Url(p), st.rawIndex + 1, Content(p).value)])
              && (pid in st.knownIds ==> r.rawIndex == st.rawIndex && r.raw == st.raw)
              && r.chunks.Keys == st.chunks.Keys + ChunkHashes(d, chunker(Content(p).value))
    ensures forall h | h in st.chunks :: h in r.chunks && r.chunks[h] == st.chunks[h]
    ensures forall h | h in r.chunks && h !in st.chunks ::
              && r.chunks[h].pageId == PageId(d, Url(p)) && r.chunks[h].url == Url(p)
              && r.chunks[h].titleNumber == st.rawIndex + 1
    ensures ChunkStoreWF(st.chunks) ==> ChunkStoreWF(r.chunks)
  {
    match Content(p)
    case None => st
    case Some(content) =>
      var url := Url(p);
      var title := st.rawIndex + 1;
      var pid := PageId(d, url);
      var chunks := StoreChunks(d, st.chunks, pid, url, title, chunker(content));
      StoreChunksRecords(d, st.chunks, pid, url, title, chunker(content));
      if pid in st.knownIds then st.(chunks := chunks)
      else CrawlState(st.knownIds + {pid}, st.rawIndex + 1,
                      st.raw[st.rawIndex + 1 := PageRecord(pid, url, title, content)], chunks)
  }

  /** The page loop of `main`, over the remaining pages. */
  function CrawlFold(d: Digests, chunker: Chunker, st: CrawlState, pages: seq<FetchedPage>): (r: CrawlState)
    ensures st.knownIds <= r.knownIds
    ensures st.rawIndex <= r.rawIndex
    ensures forall h | h in st.chunks :: h in r.chunks && r.chunks[h] == st.chunks[h]
    decreases |pages|
  {
    if |pages| == 0 then st else CrawlFold(d, chunker, CrawlStep(d, chunker, st, pages[0]), pages[1..])
  }

  /** One run of the deduplicating scraper over the pages the crawler returned. */
  function CrawlPass(d: Digests, raw: RawStore, chunks: ChunkStore, pages: seq<FetchedPage>): (r: CrawlState)
    ensures KnownIds(raw) <= r.knownIds
    ensures forall h | h in chunks :: h in r.chunks && r.chunks[h] == chunks[h]
  {
    CrawlFold(d, PageChunks, StartState(raw, chunks), pages)
  }

  // ------------------------------------------------------------------
  // Store invariants
  // ------------------------------------------------------------------

  /** As many page ids as raw files, when no two files share an id. */
  lemma {:induction false} KnownIdsCount(raw: RawStore)
    requires DistinctIds(raw)
    ensures |KnownIds(raw)| == |raw.Keys|
    decreases |raw.Keys|
  {
    if |raw.Keys| > 0 {
      var n :| n in raw;
      var rest := map m | m in raw && m != n :: raw[m];
      KnownIdsRemove(raw, n, rest);
      KnownIdsCount(rest);
    }
  }

  /** Removing one raw file removes exactly its id, when ids are distinct. */
  lemma KnownIdsRemove(raw: RawStore, n: nat, rest: RawStore)
    requires DistinctIds(raw) && n in raw
    requires rest == map m | m in raw && m != n :: raw[m]
    ensures DistinctIds(rest) && rest.Keys == raw.Keys - {n}
    ensures KnownIds(raw) == KnownIds(rest) + {raw[n].pageId}
    ensures raw[n].pageId !in KnownIds(rest)
  {
    forall id | id in KnownIds(raw) ensures id in KnownIds(rest) + {raw[n].pageId} {
      var m :| m in raw && raw[m].pageId == id;
      if m != n { assert m in rest; }
    }
    forall id | id in KnownIds(rest) ensures id in KnownIds(raw) {
      var m :| m in rest && rest[m].pageId == id;
      assert raw[m].pageId == id;
    }
    assert raw[n].pageId in KnownIds(raw);
  }

  /** The state loaded from a well-formed raw directory is consistent with it. */
  lemma StartStateWF(raw: RawStore, chunks: ChunkStore)
    requires RawStoreWF(raw)
    ensures StateWF(StartState(raw, chunks))
  {
    KnownIdsCount(raw);
    assert |raw.Keys| == |raw|;
  }

  /** Writing a page with a new id to the next file number keeps the raw directory consistent. */
  lemma AddPageWF(raw: RawStore, n: nat, rec: PageRecord)
    requires forall m | m in raw :: 1 <= m <= n
    requires |raw| == n && DistinctIds(raw) && rec.pageId !in KnownIds(raw)
    ensures n + 1 !in raw
    ensures var raw' := raw[n + 1 := rec];
      && (forall m | m in raw' :: 1 <= m <= n + 1)
      && |raw'| == n + 1
      && DistinctIds(raw')
      && KnownIds(raw') == KnownIds(raw) + {rec.pageId}
  {
    var raw' := raw[n + 1 := rec];
    forall id | id in KnownIds(raw') ensures id in KnownIds(raw) + {rec.pageId} {
      var m :| m in raw' && raw'[m].pageId == id;
      if m != n + 1 { assert m in raw && raw[m].pageId == id; }
    }
    forall id | id in KnownIds(raw) ensures id in KnownIds(raw') {
      var m :| m in raw && raw[m].pageId == id;
      assert m in raw' && raw'[m].pageId == id;
    }
    assert raw'[n + 1].pageId == rec.pageId;
    forall m, k | m in raw' && k in raw' && raw'[m].pageId == raw'[k].pageId ensures m == k {
      if m != n + 1 && k != n + 1 {
        assert raw[m].pageId == raw[k].pageId;
      }
    }
  }

  /** One page keeps the state consistent: a raw write always lands on a fresh file. */
  lemma StepWF(d: Digests, chunker: Chunker, st: CrawlState, p: FetchedPage)
    requires StateWF(st)
    ensures StateWF(CrawlStep(d, chunker, st, p))
    ensures st.rawIndex + 1 !in st.raw
  {
    var r := CrawlStep(d, chunker, st, p);
    if Content(p).Some? {
      var pid := PageId(d, Url(p));
      if pid !in st.knownIds {
        AddPageWF(st.raw, st.rawIndex, PageRecord(pid, Url(p), st.rawIndex + 1, Content(p).value));
      }
    }
  }

  lemma {:induction false} FoldWF(d: Digests, chunker: Chunker, st: CrawlState, pages: seq<FetchedPage>)
    requires StateWF(st)
    ensures StateWF(CrawlFold(d, chunker, st, pages))
    decreases |pages|
  {
    if |pages| > 0 {
      StepWF(d, chunker, st, pages[0]);
      FoldWF(d, chunker, CrawlStep(d, chunker, st, pages[0]), pages[1..]);
    }
  }

  /** In a consistent state the raw-page counter equals the number of known ids. */
  lemma CounterCountsIds(st: CrawlState)
    requires StateWF(st)
    ensures st.rawIndex == |st.knownIds| == |st.raw|
  {
    KnownIdsCount(st.raw);
  }

  /** A page whose id is already known is still chunked; only its raw write is skipped. */
  lemma KnownPageStillChunked(d: Digests, chunker: Chunker, st: CrawlState, p: FetchedPage)
    requires Content(p).Some? && PageId(d, Url(p)) in st.knownIds
    ensures CrawlStep(d, chunker, st, p).raw == st.raw
    ensures CrawlStep(d, chunker, st, p).rawIndex == st.rawIndex
    ensures ChunkHashes(d, chunker(Content(p).value)) <= CrawlStep(d, chunker, st, p).chunks.Keys
  {
  }

  /** A pass over a consistent store keeps both stores consistent, overwrites no raw
      file and no chunk file, and advances the raw counter once per newly seen page id. */
  lemma CrawlPassKeepsStores(d: Digests, raw: RawStore, chunks: ChunkStore, pages: seq<FetchedPage>)
    requires RawStoreWF(raw) && ChunkStoreWF(chunks)
    ensures var r := CrawlPass(d, raw, chunks, pages);
      && RawStoreWF(r.raw)
      && ChunkStoreWF(r.chunks)
      && (forall n | n in raw :: n in r.raw && r.raw[n] == raw[n])
      && (forall h | h in chunks :: h in r.chunks && r.chunks[h] == chunks[h])
      && |r.raw| - |raw| == |KnownIds(r.raw) - KnownIds(raw)|
  {
    var chunker: Chunker := PageChunks;
    var s0 := StartState(raw, chunks);
    StartStateWF(raw, chunks);
    FoldKeeps(d, chunker, s0, pages);
    var r := CrawlPass(d, raw, chunks, pages);
    FoldWF(d, chunker, s0, pages);
    CounterCountsIds(s0);
    CounterCountsIds(r);
    assert KnownIds(raw) <= KnownIds(r.raw);
    assert |KnownIds(r.raw) - KnownIds(raw)| == |KnownIds(r.raw)| - |KnownIds(raw)|;
  }

  /** One page rewrites no raw file. */
  lemma StepKeepsRaw(d: Digests, chunker: Chunker, st: CrawlState, p: FetchedPage)
    requires StateWF(st)
    ensures forall n | n in st.raw :: n in CrawlStep(d, chunker, st, p).raw && CrawlStep(d, chunker, st, p).raw[n] == st.raw[n]
  {
    StepWF(d, chunker, st, p);
  }

  /** The title is computed before the id check, so the new chunk files of a page
      whose id is already known are titled `Page {raw_index + 1}`: in a consistent
      state, a file number that holds no page. */
  lemma KnownPageChunksTitledWithUnusedNumber(d: Digests, chunker: Chunker, st: CrawlState, p: FetchedPage)
    requires StateWF(st) && Content(p).Some? && PageId(d, Url(p)) in st.knownIds
    ensures st.rawIndex + 1 !in st.raw
    ensures var r := CrawlStep(d, chunker, st, p);
      forall h | h in r.chunks && h !in st.chunks :: r.chunks[h].titleNumber == st.rawIndex + 1
  {
  }

  /** The title number a known page's new chunk files carry names no raw file only until
      the next page with a new id: that page is written to exactly that file number ... */
  lemma KnownPageTitleThenNamesNextNewPage(d: Digests, chunker: Chunker, st: CrawlState, pa: FetchedPage, pb: FetchedPage)
    requires Content(pa).Some? && Content(pb).Some?
    requires PageId(d, Url(pa)) in st.knownIds && PageId(d, Url(pb)) !in st.knownIds
    ensures var s2 := CrawlStep(d, chunker, CrawlStep(d, chunker, st, pa), pb);
      st.rawIndex + 1 in s2.raw && s2.raw[st.rawIndex + 1].pageId == PageId(d, Url(pb))
  {
    KnownPageKeepsCounter(d, chunker, st, pa, PageId(d, Url(pb)));
    NewPageLandsAtNextNumber(d, chunker, CrawlStep(d, chunker, st, pa), pb);
  }

  /** ... while those chunk files keep that title number through the next step. */
  lemma KnownPageChunksKeepTitle(d: Digests, chunker: Chunker, st: CrawlState, pa: FetchedPage, pb: FetchedPage)
    requires Content(pa).Some? && PageId(d, Url(pa)) in st.knownIds
    ensures var s1 := CrawlStep(d, chunker, st, pa);
      forall h | h in s1.chunks && h !in st.chunks :: CrawlStep(d, chunker, s1, pb).chunks[h].titleNumber == st.rawIndex + 1
  {
    StepKeepsTitles(d, chunker, st.chunks, CrawlStep(d, chunker, st, pa), pb, st.rawIndex + 1);
  }

  /** Chunk files keep their titles through a step. */
  lemma StepKeepsTitles(d: Digests, chunker: Chunker, old0: ChunkStore, st: CrawlState, p: FetchedPage, n: nat)
    requires forall h | h in st.chunks && h !in old0 :: st.chunks[h].titleNumber == n
    ensures forall h | h in st.chunks && h !in old0 :: CrawlStep(d, chunker, st, p).chunks[h].titleNumber == n
  {
  }

  /** A page whose id is known keeps the counter and learns no other id. */
  lemma KnownPageKeepsCounter(d: Digests, chunker: Chunker, st: CrawlState, p: FetchedPage, other: string)
    requires Content(p).Some? && PageId(d, Url(p)) in st.knownIds && other !in st.knownIds
    ensures var r := CrawlStep(d, chunker, st, p);
      r.rawIndex == st.rawIndex && other !in r.knownIds
  {
  }

  /** A page with a new id is written to file number `raw_index + 1`. */
  lemma NewPageLandsAtNextNumber(d: Digests, chunker: Chunker, st: CrawlState, p: FetchedPage)
    requires Content(p).Some? && PageId(d, Url(p)) !in st.knownIds
    ensures var r := CrawlStep(d, chunker, st, p);
      st.rawIndex + 1 in r.raw && r.raw[st.rawIndex + 1].pageId == PageId(d, Url(p))
  {
  }

  /** Raw files and chunk files already present are never overwritten, and chunk files stay content-addressed. */
  lemma {:induction false} FoldKeeps(d: Digests, chunker: Chunker, st: CrawlState, pages: seq<FetchedPage>)
    requires StateWF(st) && ChunkStoreWF(st.chunks)
    ensures var r := CrawlFold(d, chunker, st, pages);
      && ChunkStoreWF(r.chunks)
      && (forall n | n in st.raw :: n in r.raw && r.raw[n] == st.raw[n])
    decreases |pages|
  {
    if |pages| > 0 {
      var s1 := CrawlStep(d, chunker, st, pages[0]);
      StepWF(d, chunker, st, pages[0]);
      StepKeepsRaw(d, chunker, st, pages[0]);
      FoldKeeps(d, chunker, s1, pages[1..]);
    }
  }

  // ------------------------------------------------------------------
  // Idempotence
  // ------------------------------------------------------------------

  /** Every page with content has its id known and all its chunk hashes stored. */
  predicate Covers(d: Digests, chunker: Chunker, st: CrawlState, pages: seq<FetchedPage>) {
    forall i | 0 <= i < |pages| && Content(pages[i]).Some? ::
      && PageId(d, Url(pages[i])) in st.knownIds
      && ChunkHashes(d, chunker(Content(pages[i]).value)) <= st.chunks.Keys
  }

  /** After a pass, every page of that pass is covered. */
  lemma {:induction false} FoldCovers(d: Digests, chunker: Chunker, st: CrawlState, pages: seq<FetchedPage>)
    ensures Covers(d, chunker, CrawlFold(d, chunker, st, pages), pages)
    decreases |pages|
  {
    if |pages| > 0 {
      var s1 := CrawlStep(d, chunker, st, pages[0]);
      FoldCovers(d, chunker, s1, pages[1..]);
      var r := CrawlFold(d, chunker, s1, pages[1..]);
      forall i | 1 <= i < |pages| && Content(pages[i]).Some?
        ensures PageId(d, Url(pages[i])) in r.knownIds
        ensures ChunkHashes(d, chunker(Content(pages[i]).value)) <= r.chunks.Keys
      {
        assert pages[i] == pages[1..][i - 1];
      }
    }
  }

  /** Storing chunks whose hashes are all present changes nothing. */
  lemma StoreChunksCovered(d: Digests, store: ChunkStore, pageId: string, url: string, title: nat,
                           cs: seq<(nat, string)>)
    requires ChunkHashes(d, cs) <= store.Keys
    ensures StoreChunks(d, store, pageId, url, title, cs) == store
  {
    var r := StoreChunks(d, store, pageId, url, title, cs);
    assert r.Keys == store.Keys;
  }

  /** A page the state already covers leaves the state as it is. */
  lemma StepCoveredIsIdentity(d: Digests, chunker: Chunker, st: CrawlState, p: FetchedPage)
    requires Content(p).Some? ==>
               && PageId(d, Url(p)) in st.knownIds
               && ChunkHashes(d, chunker(Content(p).value)) <= st.chunks.Keys
    ensures CrawlStep(d, chunker, st, p) == st
  {
    if Content(p).Some? {
      ContentStepCoveredIsIdentity(d, chunker, st, p);
    }
  }

  lemma ContentStepCoveredIsIdentity(d: Digests, chunker: Chunker, st: CrawlState, p: FetchedPage)
    requires Content(p).Some?
    requires PageId(d, Url(p)) in st.knownIds
    requires ChunkHashes(d, chunker(Content(p).value)) <= st.chunks.Keys
    ensures CrawlStep(d, chunker, st, p) == st
  {
    var url := Url(p);
    var title := st.rawIndex + 1;
    var pid := PageId(d, url);
    var cs := chunker(Content(p).value);
    StoreChunksCovered(d, st.chunks, pid, url, title, cs);
    assert CrawlStep(d, chunker, st, p) == st.(chunks := StoreChunks(d, st.chunks, pid, url, title, cs));
  }

  /** A pass over pages the state already covers changes nothing. */
  lemma {:induction false} FoldCoveredIsIdentity(d: Digests, chunker: Chunker, st: CrawlState, pages: seq<FetchedPage>)
    requires Covers(d, chunker, st, pages)
    ensures CrawlFold(d, chunker, st, pages) == st
    decreases |pages|
  {
    if |pages| > 0 {
      StepCoveredIsIdentity(d, chunker, st, pages[0]);
      assert Covers(d, chunker, st, pages[1..]) by {
        forall i | 0 <= i < |pages[1..]| && Content(pages[1..][i]).Some?
          ensures PageId(d, Url(pages[1..][i])) in st.knownIds
          ensures ChunkHashes(d, chunker(Content(pages[1..][i]).value)) <= st.chunks.Keys
        {
          assert pages[1..][i] == pages[i + 1];
        }
      }
      FoldCoveredIsIdentity(d, chunker, st, pages[1..]);
    }
  }

  /** Idempotence: re-running a pass over the same pages from the stores the first run
      left behind writes no page and no chunk. */
  lemma CrawlIdempotent(d: Digests, raw: RawStore, chunks: ChunkStore, pages: seq<FetchedPage>)
    requires RawStoreWF(raw)
    ensures var first := CrawlPass(d, raw, chunks, pages);
      var second := CrawlPass(d, first.raw, first.chunks, pages);
      second.raw == first.raw && second.chunks == first.chunks
  {
    var chunker: Chunker := PageChunks;
    var first := CrawlPass(d, raw, chunks, pages);
    StartStateWF(raw, chunks);
    FoldWF(d, chunker, StartState(raw, chunks), pages);
    CounterCountsIds(first);
    assert StartState(first.raw, first.chunks) == first;
    FoldCovers(d, chunker, StartState(raw, chunks), pages);
    FoldCoveredIsIdentity(d, chunker, first, pages);
  }

  /** A URL fetched twice in one pass is written to the raw directory only once: when the
      loop reaches the later visit, the page id is known and no raw file is written. */
  lemma SameUrlWrittenOnce(d: Digests, chunker: Chunker, st: CrawlState, pages: seq<FetchedPage>, i: nat, j: nat)
    requires i < j < |pages|
    requires Content(pages[i]).Some? && Content(pages[j]).Some? && Url(pages[i]) == Url(pages[j])
    ensures var s := CrawlFold(d, chunker, st, pages[..j]);
      var r := CrawlStep(d, chunker, s, pages[j]);
      r.raw == s.raw && r.rawIndex == s.rawIndex
  {
    FoldCovers(d, chunker, st, pages[..j]);
    assert pages[..j][i] == pages[i];
  }

  /** The raw counter is the number of ids at load time, not the largest file number:
      a raw directory with a gap (here `page_1.json` missing) makes the next new page
      overwrite an existing file. */
  lemma GapInRawStoreOverwrites(d: Digests, chunker: Chunker, rec: PageRecord, p: FetchedPage)
    requires Content(p).Some? && PageId(d, Url(p)) != rec.pageId
    ensures var st := StartState(map[2 := rec], map[]);
      var r := CrawlStep(d, chunker, st, p);
      2 in r.raw && r.raw[2] != rec
  {
    var raw := map[2 := rec];
    assert KnownIds(raw) == {rec.pageId} by {
      assert raw[2].pageId == rec.pageId;
    }
  }

  /** Idempotence needs the gap-free raw directory: with only `page_2.json` on disk, holding
      the id of the first page, the first pass writes the second page over `page_2.json`,
      and a second pass over the same pages writes the first page back. */
  lemma GapInRawStoreBreaksIdempotence(d: Digests, chunker: Chunker, rec: PageRecord, pa: FetchedPage, pb: FetchedPage)
    requires Content(pa).Some? && Content(pb).Some?
    requires PageId(d, Url(pa)) == rec.pageId && PageId(d, Url(pb)) != rec.pageId
    ensures var first := CrawlFold(d, chunker, StartState(map[2 := rec], map[]), [pa, pb]);
      var second := CrawlFold(d, chunker, StartState(first.raw, first.chunks), [pa, pb]);
      && first.raw.Keys == {2} && first.raw[2].pageId == PageId(d, Url(pb))
      && second.raw.Keys == {2} && second.raw[2].pageId == rec.pageId
  {
    var raw := map[2 := rec];
    assert raw.Keys == {2};
    GapStart(raw, map[]);
    GapPassFirstKnown(d, chunker, StartState(raw, map[]), pa, pb);
    var first := CrawlFold(d, chunker, StartState(raw, map[]), [pa, pb]);
    GapStart(first.raw, first.chunks);
    GapPassSecondKnown(d, chunker, StartState(first.raw, first.chunks), pa, pb);
  }

  /** The state loaded from a raw directory holding only `page_2.json`. */
  lemma GapStart(raw: RawStore, chunks: ChunkStore)
    requires raw.Keys == {2}
    ensures var st := StartState(raw, chunks);
      st.knownIds == {raw[2].pageId} && st.rawIndex == 1 && st.raw == raw
  {
    assert KnownIds(raw) == {raw[2].pageId} by {
      assert 2 in raw;
    }
  }

  /** One pass over two pages from the state of a raw directory holding only `page_2.json`,
      when the first page has that file's id and the second does not: the second page is
      written over `page_2.json`. */
  lemma GapPassFirstKnown(d: Digests, chunker: Chunker, st: CrawlState, pa: FetchedPage, pb: FetchedPage)
    requires st.raw.Keys == {2} && st.knownIds == {st.raw[2].pageId} && st.rawIndex == 1
    requires Content(pa).Some? && Content(pb).Some?
    requires PageId(d, Url(pa)) == st.raw[2].pageId && PageId(d, Url(pb)) != st.raw[2].pageId
    ensures var r := CrawlFold(d, chunker, st, [pa, pb]);
      r.raw.Keys == {2} && r.raw[2].pageId == PageId(d, Url(pb))
  {
    FoldTwo(d, chunker, st, pa, pb);
  }

  /** The same with the roles swapped: the first page is written over `page_2.json`. */
  lemma GapPassSecondKnown(d: Digests, chunker: Chunker, st: CrawlState, pa: FetchedPage, pb: FetchedPage)
    requires st.raw.Keys == {2} && st.knownIds == {st.raw[2].pageId} && st.rawIndex == 1
    requires Content(pa).Some? && Content(pb).Some?
    requires PageId(d, Url(pa)) != st.raw[2].pageId && PageId(d, Url(pb)) == st.raw[2].pageId
    ensures var r := CrawlFold(d, chunker, st, [pa, pb]);
      r.raw.Keys == {2} && r.raw[2].pageId == PageId(d, Url(pa))
  {
    FoldTwo(d, chunker, st, pa, pb);
  }

  /** A pass over two pages is two steps. */
  lemma FoldTwo(d: Digests, chunker: Chunker, st: CrawlState, pa: FetchedPage, pb: FetchedPage)
    ensures CrawlFold(d, chunker, st, [pa, pb]) == CrawlStep(d, chunker, CrawlStep(d, chunker, st, pa), pb)
  {
    var s1 := CrawlStep(d, chunker, st, pa);
    assert [pa, pb][1..] == [pb] && [pb][1..] == [];
    assert CrawlFold(d, chunker, st, [pa, pb]) == CrawlFold(d, chunker, s1, [pb]);
    assert CrawlFold(d, chunker, s1, [pb]) == CrawlFold(d, chunker, CrawlStep(d, chunker, s1, pb), []);
  }
}

=== FILE: fetch.dfy ===
/**
 * What the scrapers read from each crawled page. The crawler itself is not
 * modelled: a crawl is the sequence of pages it returned, each with the
 * attributes the scrapers probe, absent when the crawler did not set them.
 */
module Fetch {
  import opened Wrappers

  /** The site both scrapers crawl; also the fallback URL of a page without one. */
  const BASE_URL: string := "https://www.itnb.ch/en"

  datatype FetchedPage = FetchedPage(
    url: Option<string>,
    title: Option<string>,
    markdown: Option<string>,
    text: Option<string>)

  /** `getattr(page, "markdown", None) or getattr(page, "text", None)`, or None when
      that value is falsy (absent or empty) and the page is skipped. */
  function Content(p: FetchedPage): (c: Option<string>)
    ensures c.Some? ==> |c.value| > 0
    ensures c.None? <==> (p.markdown.None? || p.markdown.value == "") && (p.text.None? || p.text.value == "")
    ensures p.markdown.Some? && p.markdown.value != "" ==> c == p.markdown
    ensures c.Some? && c != p.markdown ==> c == p.text
  {
    if p.markdown.Some? && p.markdown.value != "" then p.markdown
    else if p.text.Some? && p.text.value != "" then p.text
    else None
  }

  /** `getattr(page, "url", BASE_URL)`. */
  function Url(p: FetchedPage): string {
    p.url.GetOr(BASE_URL)
  }
}

=== FILE: identity.dfy ===
/**
 * `make_page_id` and `make_chunk_hash`. The digests themselves (MD5 of the
 * URL, SHA-256 of the normalized chunk, both as hex strings) are not
 * modelled: they are supplied as arbitrary deterministic functions, and no
 * property below assumes they are injective.
 */
module Identity {
  import opened Text

  /** A deterministic digest of a string, rendered as a string. */
  type Digest = string -> string

  /** The two digests the scraper uses: MD5 for page ids, SHA-256 for chunk hashes. */
  datatype Digests = Digests(md5: Digest, sha256: Digest)

  /** `make_page_id(url)`: the MD5 digest of the URL alone. */
  function PageId(d: Digests, url: string): string {
    d.md5(url)
  }

  /** `make_chunk_hash(text)`: the SHA-256 digest of the normalized text, that is, of the
      text's lower-cased words joined by single spaces. */
  function ChunkHash(d: Digests, text: string): (r: string)
    ensures r == d.sha256(Join(LowerWords(Words(text))))
  {
    d.sha256(NormalizeText(text))
  }

  /** Chunks with the same words, however they are spaced, get the same hash. */
  lemma ChunkHashIgnoresSpacing(d: Digests, a: string, b: string)
    requires Words(a) == Words(b)
    ensures ChunkHash(d, a) == ChunkHash(d, b)
  {
    NormalizeTextEqualIff(a, b);
  }

  /** Chunks whose words agree up to letter case get the same hash. */
  lemma ChunkHashIgnoresCase(d: Digests, a: string, b: string)
    requires LowerWords(Words(a)) == LowerWords(Words(b))
    ensures ChunkHash(d, a) == ChunkHash(d, b)
  {
    NormalizeTextEqualIff(a, b);
  }

  /** Hashing a chunk's normalized form gives the chunk's own hash. */
  lemma ChunkHashOfNormalized(d: Digests, a: string)
    ensures ChunkHash(d, NormalizeText(a)) == ChunkHash(d, a)
  {
    NormalizeTextIdempotent(a);
  }

  /** Cleaning a chunk before hashing it does not change its hash. */
  lemma ChunkHashOfCleaned(d: Digests, a: string)
    ensures ChunkHash(d, CleanText(a)) == ChunkHash(d, a)
  {
    CleanTextKeepsWords(a);
    ChunkHashIgnoresSpacing(d, CleanText(a), a);
  }
}

=== FILE: ingest.dfy ===
/**
 * The deduplicating ingestion driver: it loads the ledger, visits the cleaned
 * chunk files in sorted name order, skips a chunk whose hash the ledger already
 * holds, submits the rest, records the hash of each accepted submission, counts
 * what happened, and saves the ledger.
 *
 * Reading a file and the search service's answer to a submission are parameters:
 * `read(name)` is what opening, decoding and `data.get("chunk_hash")` give,
 * `accepted(name)` whether `client.ingest` returned rather than raised.
 */
module Ingest {
  import opened Wrappers
  import opened Listing
  import opened Ledger

  /** A chunk file as the driver reads it: unreadable (any error before submission), or its `chunk_hash`. */
  datatype FileRead = Unreadable | Parsed(chunkHash: Hash)

  /** One call of `client.ingest`: the file, its hash, and whether it returned. */
  datatype Submission = Submission(name: string, hash: Hash, ok: bool)

  /** The driver's state: the in-memory ledger, the three counters, the failed names,
      and the submissions made so far. */
  datatype IngestState = IngestState(
    known: set<Hash>,
    success: nat,
    skipped: nat,
    failure: nat,
    failedItems: seq<string>,
    submitted: seq<Submission>)

  function Start(known: set<Hash>): IngestState {
    IngestState(known, 0, 0, 0, [], [])
  }

  /** Every submission in `subs` carries the hash its file reads as, and the outcome
      the service gives that file. */
  predicate Grounded(read: string -> FileRead, accepted: string -> bool, subs: seq<Submission>) {
    forall i | 0 <= i < |subs| :: read(subs[i].name) == Parsed(subs[i].hash) && subs[i].ok == accepted(subs[i].name)
  }

  /** One iteration of the loop over the sorted listing. */
  function IngestFile(read: string -> FileRead, accepted: string -> bool, st: IngestState, name: string): (r: IngestState)
    ensures !IsJsonName(name) ==> r == st
    ensures r.success + r.skipped + r.failure == st.success + st.skipped + st.failure + (if IsJsonName(name) then 1 else 0)
    ensures st.known <= r.known
    ensures |st.submitted| <= |r.submitted| <= |st.submitted| + 1 && r.submitted[..|st.submitted|] == st.submitted
    ensures |r.submitted| > |st.submitted| ==> r.submitted[|st.submitted|].name == name
    // an unreadable `.json` file is a failure and submits nothing
    ensures IsJsonName(name) && read(name).Unreadable? ==>
              && r.known == st.known && r.submitted == st.submitted
              && r.failure == st.failure + 1 && r.failedItems == st.failedItems + [name]
    // a `.json` file whose hash the ledger holds is only counted as skipped
    ensures IsJsonName(name) && read(name).Parsed? && read(name).chunkHash in st.known ==>
              r == st.(skipped := st.skipped + 1)
    // a `.json` file with a hash the ledger lacks is submitted with that hash
    ensures IsJsonName(name) && read(name).Parsed? && read(name).chunkHash !in st.known ==>
              var h := read(name).chunkHash;
              && r.submitted == st.submitted + [Submission(name, h, accepted(name))]
              && (accepted(name) ==>
                    r.known == st.known + {h} && r.success == st.success + 1 && r.failedItems == st.failedItems)
              && (!accepted(name) ==>
                    && r.known == st.known && r.success == st.success
                    && r.failure == st.failure + 1 && r.failedItems == st.failedItems + [name])
    ensures Grounded(read, accepted, st.submitted) ==> Grounded(read, accepted, r.submitted)
  {
    if !IsJsonName(name) then st
    else match read(name)
      case Unreadable =>
        st.(failure := st.failure + 1, failedItems := st.failedItems + [name])
      case Parsed(h) =>
        if h in st.known then st.(skipped := st.skipped + 1)
        else if accepted(name) then
          st.(known := st.known + {h}, success := st.success + 1,
              submitted := st.submitted + [Submission(name, h, true)])
        else
          st.(failure := st.failure + 1, failedItems := st.failedItems + [name],
              submitted := st.submitted + [Submission(name, h, false)])
  }

  /** The loop over a listing, in the listing's order. */
  function IngestFold(read: string -> FileRead, accepted: string -> bool, st: IngestState, names: seq<string>): (r: IngestState)
    ensures st.known <= r.known
    ensures |st.submitted| <= |r.submitted| && r.submitted[..|st.submitted|] == st.submitted
    ensures Grounded(read, accepted, st.submitted) ==> Grounded(read, accepted, r.submitted)
    decreases |names|
  {
    if |names| == 0 then st
    else IngestFold(read, accepted, IngestFile(read, accepted, st, names[0]), names[1..])
  }

  /** One run of `main` up to the save: the listing is sorted first. */
  function IngestRun(read: string -> FileRead, accepted: string -> bool, ledger: LedgerFile, listing: seq<string>): IngestState {
    IngestFold(read, accepted, Start(LoadHashes(ledger)), Sort(listing))
  }

  // ------------------------------------------------------------------
  // Counters
  // ------------------------------------------------------------------

  /** Every `.json` name in the listing lands in exactly one counter; other names in none. */
  lemma {:induction false} FoldCounts(read: string -> FileRead, accepted: string -> bool, st: IngestState, names: seq<string>)
    ensures var r := IngestFold(read, accepted, st, names);
      r.success + r.skipped + r.failure == st.success + st.skipped + st.failure + JsonCount(names)
    decreases |names|
  {
    if |names| > 0 {
      FoldCounts(read, accepted, IngestFile(read, accepted, st, names[0]), names[1..]);
    }
  }

  /** The summary's total is the number of `.json` files in the directory, however it was listed. */
  lemma RunTotal(read: string -> FileRead, accepted: string -> bool, ledger: LedgerFile, listing: seq<string>)
    ensures var r := IngestRun(read, accepted, ledger, listing);
      r.success + r.skipped + r.failure == JsonCount(listing)
  {
    FoldCounts(read, accepted, Start(LoadHashes(ledger)), Sort(listing));
    SortKeepsJsonCount(listing);
  }

  // ------------------------------------------------------------------
  // Ledger and submissions
  // ------------------------------------------------------------------

  /** The hashes of the accepted submissions. */
  function AcceptedHashes(subs: seq<Submission>): set<Hash> {
    set i | 0 <= i < |subs| && subs[i].ok :: subs[i].hash
  }

  /** What the loop keeps true from a ledger `known0` on:
      the ledger is `known0` plus the accepted hashes; no submitted hash was in `known0`;
      an accepted hash is never submitted again; the counters and the failed list
      agree with the submissions. */
  predicate Consistent(known0: set<Hash>, st: IngestState) {
    && st.known == known0 + AcceptedHashes(st.submitted)
    && FreshSubmissions(known0, st.submitted)
    && NoRepeatAfterAccept(st.submitted)
    && st.failure == |st.failedItems|
    && st.success == |AcceptedIndexes(st.submitted)|
  }

  /** No submitted hash was already in the ledger `known0`. */
  predicate FreshSubmissions(known0: set<Hash>, subs: seq<Submission>) {
    forall i | 0 <= i < |subs| :: subs[i].hash !in known0
  }

  /** Once a hash is accepted, no later submission carries it. */
  predicate NoRepeatAfterAccept(subs: seq<Submission>) {
    forall i, j | 0 <= i < j < |subs| && subs[i].ok :: subs[i].hash != subs[j].hash
  }

  /** The positions of the accepted submissions. */
  function AcceptedIndexes(subs: seq<Submission>): set<nat> {
    set i: nat | i < |subs| && subs[i].ok
  }

  lemma StartConsistent(known0: set<Hash>)
    ensures Consistent(known0, Start(known0))
  {
  }

  lemma AcceptedAppend(subs: seq<Submission>, s: Submission)
    ensures AcceptedHashes(subs + [s]) == AcceptedHashes(subs) + (if s.ok then {s.hash} else {})
    ensures AcceptedIndexes(subs + [s]) == AcceptedIndexes(subs) + (if s.ok then {|subs|} else {})
    ensures |subs| !in AcceptedIndexes(subs)
  {
    var t := subs + [s];
    assert forall i | 0 <= i < |subs| :: t[i] == subs[i];
    assert t[|subs|] == s;
  }

  lemma AppendSubmission(known0: set<Hash>, subs: seq<Submission>, s: Submission)
    requires FreshSubmissions(known0, subs) && NoRepeatAfterAccept(subs)
    requires s.hash !in known0 + AcceptedHashes(subs)
    ensures FreshSubmissions(known0, subs + [s]) && NoRepeatAfterAccept(subs + [s])
  {
    var t := subs + [s];
    forall i, j | 0 <= i < j < |t| && t[i].ok
      ensures t[i].hash != t[j].hash
    {
      assert t[i] == subs[i];
      if j == |subs| {
        assert subs[i].hash in AcceptedHashes(subs);
      } else {
        assert t[j] == subs[j];
      }
    }
    forall i | 0 <= i < |t|
      ensures t[i].hash !in known0
    {
      if i < |subs| {
        assert t[i] == subs[i];
      }
    }
  }

  lemma AcceptConsistent(known0: set<Hash>, st: IngestState, name: string, h: Hash)
    requires Consistent(known0, st) && h !in st.known
    ensures Consistent(known0, st.(known := st.known + {h}, success := st.success + 1,
                                   submitted := st.submitted + [Submission(name, h, true)]))
  {
    AcceptedAppend(st.submitted, Submission(name, h, true));
    AppendSubmission(known0, st.submitted, Submission(name, h, true));
  }

  lemma RejectConsistent(known0: set<Hash>, st: IngestState, name: string, h: Hash)
    requires Consistent(known0, st) && h !in st.known
    ensures Consistent(known0, st.(failure := st.failure + 1, failedItems := st.failedItems + [name],
                                   submitted := st.submitted + [Submission(name, h, false)]))
  {
    AcceptedAppend(st.submitted, Submission(name, h, false));
    AppendSubmission(known0, st.submitted, Submission(name, h, false));
  }

  lemma StepConsistent(known0: set<Hash>, read: string -> FileRead, accepted: string -> bool, st: IngestState, name: string)
    requires Consistent(known0, st)
    ensures Consistent(known0, IngestFile(read, accepted, st, name))
  {
    if IsJsonName(name) && read(name).Parsed? && read(name).chunkHash !in st.known {
      if accepted(name) {
        AcceptConsistent(known0, st, name, read(name).chunkHash);
      } else {
        RejectConsistent(known0, st, name, read(name).chunkHash);
      }
    }
  }

  lemma {:induction false} FoldConsistent(known0: set<Hash>, read: string -> FileRead, accepted: string -> bool,
                                          st: IngestState, names: seq<string>)
    requires Consistent(known0, st)
    ensures Consistent(known0, IngestFold(read, accepted, st, names))
    decreases |names|
  {
    if |names| > 0 {
      StepConsistent(known0, read, accepted, st, names[0]);
      FoldConsistent(known0, read, accepted, IngestFile(read, accepted, st, names[0]), names[1..]);
    }
  }

  /** What one run guarantees about the ledger it ends with and the submissions it made. */
  lemma RunConsistent(read: string -> FileRead, accepted: string -> bool, ledger: LedgerFile, listing: seq<string>)
    ensures var r := IngestRun(read, accepted, ledger, listing);
      && r.known == LoadHashes(ledger) + AcceptedHashes(r.submitted)
      && (forall i | 0 <= i < |r.submitted| :: r.submitted[i].hash !in LoadHashes(ledger))
      && (forall i, j | 0 <= i < j < |r.submitted| && r.submitted[i].ok :: r.submitted[i].hash != r.submitted[j].hash)
      && r.failure == |r.failedItems|
      && Grounded(read, accepted, r.submitted)
  {
    StartConsistent(LoadHashes(ledger));
    FoldConsistent(LoadHashes(ledger), read, accepted, Start(LoadHashes(ledger)), Sort(listing));
  }

  /** A file whose hash is in the ledger when it is reached is counted as skipped and not submitted. */
  lemma KnownHashIsSkipped(read: string -> FileRead, accepted: string -> bool, st: IngestState, name: string)
    requires IsJsonName(name) && read(name).Parsed? && read(name).chunkHash in st.known
    ensures IngestFile(read, accepted, st, name) == st.(skipped := st.skipped + 1)
  {
  }

  /** A rejected submission leaves its hash out of the ledger (unless another file with the
      same hash was accepted), so that file, reached from the saved ledger and accepted, is
      submitted. Which file of the next run that is: `NextRunResubmits`. */
  lemma {:induction false} RejectedIsRetried(read: string -> FileRead, accepted: string -> bool, ledger: LedgerFile,
                                             listing: seq<string>, i: nat, accepted2: string -> bool)
    requires var r := IngestRun(read, accepted, ledger, listing);
      i < |r.submitted| && !r.submitted[i].ok && r.submitted[i].hash !in AcceptedHashes(r.submitted)
    requires accepted2(IngestRun(read, accepted, ledger, listing).submitted[i].name)
    ensures var r := IngestRun(read, accepted, ledger, listing);
      var s := r.submitted[i];
      && s.hash !in r.known
      && (read(s.name) == Parsed(s.hash) ==>
            IngestFile(read, accepted2, Start(r.known), s.name).submitted == [Submission(s.name, s.hash, true)])
  {
    var r := IngestRun(read, accepted, ledger, listing);
    RunConsistent(read, accepted, ledger, listing);
    SubmittedIsJsonName(read, accepted, Start(LoadHashes(ledger)), Sort(listing), i);
  }

  /** Whether `name` is a `.json` file that reads as hash `h`. */
  predicate Carries(read: string -> FileRead, h: Hash, name: string) {
    IsJsonName(name) && read(name) == Parsed(h)
  }

  /** `names[k]` is the first name in `names` that carries `h`. */
  predicate FirstCarrier(read: string -> FileRead, h: Hash, names: seq<string>, k: nat) {
    k < |names| && Carries(read, h, names[k]) && forall m | 0 <= m < k :: !Carries(read, h, names[m])
  }

  /** Some file in `names` carries `h`, and a loop from ledger `known` submits the first
      such file with the service's answer to it. */
  predicate SubmitsFirstCarrier(read: string -> FileRead, accepted: string -> bool, known: set<Hash>,
                                names: seq<string>, h: Hash) {
    && (exists k: nat | k < |names| :: FirstCarrier(read, h, names, k))
    && forall k: nat | k < |names| && FirstCarrier(read, h, names, k) ::
         Submission(names[k], h, accepted(names[k])) in IngestFold(read, accepted, Start(known), names).submitted
  }

  /** A rejected hash that no file in the run got accepted stays out of the saved ledger.
      The next run over the same directory, from that ledger, reaches a first file
      carrying the hash and submits it, whatever the service answers then. */
  lemma NextRunResubmits(read: string -> FileRead, accepted: string -> bool, ledger: LedgerFile,
                         listing: seq<string>, i: nat, accepted2: string -> bool)
    requires var r := IngestRun(read, accepted, ledger, listing);
      i < |r.submitted| && !r.submitted[i].ok && r.submitted[i].hash !in AcceptedHashes(r.submitted)
    ensures var r := IngestRun(read, accepted, ledger, listing);
      && r.submitted[i].hash !in r.known
      && SubmitsFirstCarrier(read, accepted2, r.known, Sort(listing), r.submitted[i].hash)
  {
    var r := IngestRun(read, accepted, ledger, listing);
    var h := r.submitted[i].hash;
    var names := Sort(listing);
    RunConsistent(read, accepted, ledger, listing);
    SubmittedIsJsonName(read, accepted, Start(LoadHashes(ledger)), names, i);
    SubmittedNameListed(read, accepted, Start(LoadHashes(ledger)), names, i);
    var j :| 0 <= j < |names| && names[j] == r.submitted[i].name;
    var k0 := FirstCarrierAtOrBefore(read, h, names, j);
    assert FirstCarrier(read, h, names, k0);
    forall k: nat | FirstCarrier(read, h, names, k)
      ensures Submission(names[k], h, accepted2(names[k])) in IngestFold(read, accepted2, Start(r.known), names).submitted
    {
      FirstCarrierSubmitted(read, accepted2, Start(r.known), names, h, k);
    }
    assert SubmitsFirstCarrier(read, accepted2, r.known, names, h);
  }

  /** Some name at or before a carrier of `h` is the first carrier. */
  lemma FirstCarrierAtOrBefore(read: string -> FileRead, h: Hash, names: seq<string>, j: nat) returns (k: nat)
    requires j < |names| && Carries(read, h, names[j])
    ensures k <= j && FirstCarrier(read, h, names, k)
  {
    k := 0;
    while !Carries(read, h, names[k])
      invariant k <= j
      invariant forall m | 0 <= m < k :: !Carries(read, h, names[m])
      decreases j - k
    {
      k := k + 1;
    }
  }

  /** When the ledger lacks `h`, the loop submits the first file carrying `h`. */
  lemma {:induction false} FirstCarrierSubmitted(read: string -> FileRead, accepted: string -> bool, st: IngestState,
                                                 names: seq<string>, h: Hash, k: nat)
    requires FirstCarrier(read, h, names, k) && h !in st.known
    ensures Submission(names[k], h, accepted(names[k])) in IngestFold(read, accepted, st, names).submitted
    decreases |names|
  {
    var s1 := IngestFile(read, accepted, st, names[0]);
    var r := IngestFold(read, accepted, s1, names[1..]);
    if k == 0 {
      assert s1.submitted[|st.submitted|] == Submission(names[0], h, accepted(names[0]));
      assert r.submitted[..|s1.submitted|] == s1.submitted;
      assert r.submitted[|st.submitted|] == s1.submitted[|st.submitted|];
    } else {
      assert !Carries(read, h, names[0]);
      assert h !in s1.known;
      forall m | 0 <= m < k - 1
        ensures !Carries(read, h, names[1..][m])
      {
        assert names[1..][m] == names[m + 1];
      }
      assert names[1..][k - 1] == names[k];
      FirstCarrierSubmitted(read, accepted, s1, names[1..], h, k - 1);
    }
  }

  /** Submissions are only made for names the loop visits. */
  lemma {:induction false} SubmittedNameListed(read: string -> FileRead, accepted: string -> bool, st: IngestState,
                                               names: seq<string>, i: nat)
    requires |st.submitted| <= i < |IngestFold(read, accepted, st, names).submitted|
    ensures IngestFold(read, accepted, st, names).submitted[i].name in names
    decreases |names|
  {
    if |names| > 0 {
      var s1 := IngestFile(read, accepted, st, names[0]);
      if i < |s1.submitted| {
        assert i == |st.submitted|;
        assert IngestFold(read, accepted, s1, names[1..]).submitted[i] == s1.submitted[i];
      } else {
        SubmittedNameListed(read, accepted, s1, names[1..], i);
        assert forall x | x in names[1..] :: x in names;
      }
    }
  }

  /** Submissions are only made for `.json` files. */
  lemma {:induction false} SubmittedIsJsonName(read: string -> FileRead, accepted: string -> bool, st: IngestState,
                                               names: seq<string>, i: nat)
    requires |st.submitted| <= i < |IngestFold(read, accepted, st, names).submitted|
    ensures IsJsonName(IngestFold(read, accepted, st, names).submitted[i].name)
    decreases |names|
  {
    if |names| > 0 {
      var s1 := IngestFile(read, accepted, st, names[0]);
      if i < |s1.submitted| {
        assert i == |st.submitted|;
        assert IngestFold(read, accepted, s1, names[1..]).submitted[i] == s1.submitted[i];
      } else {
        SubmittedIsJsonName(read, accepted, s1, names[1..], i);
      }
    }
  }

  /** The missing-field hazard: two files without a `chunk_hash`. Once the first is accepted,
      `None` is in the ledger and the second is skipped as a duplicate, whatever it holds. */
  lemma HashlessFilesShareOneSlot(read: string -> FileRead, accepted: string -> bool, known: set<Hash>)
    requires read("a.json") == Parsed(None) && read("b.json") == Parsed(None)
    requires None !in known && accepted("a.json")
    ensures var r := IngestFold(read, accepted, Start(known), ["a.json", "b.json"]);
      && r.success == 1 && r.skipped == 1
      && r.submitted == [Submission("a.json", None, true)]
      && None in r.known
  {
    assert IsJsonName("a.json") && IsJsonName("b.json");
    var s1 := IngestFile(read, accepted, Start(known), "a.json");
    assert ["a.json", "b.json"][1..] == ["b.json"];
    assert IngestFold(read, accepted, s1, ["b.json"]) == IngestFile(read, accepted, s1, "b.json");
  }

  /** `main`: load, run, save. */
  method IngestMain(read: string -> FileRead, accepted: string -> bool, ledger: LedgerFile, listing: seq<string>)
    returns (saved: LedgerFile, summary: IngestState)
    ensures summary == IngestRun(read, accepted, ledger, listing)
    ensures LoadHashes(saved) == LoadHashes(ledger) + AcceptedHashes(summary.submitted)
    ensures summary.success + summary.skipped + summary.failure == JsonCount(listing)
    ensures forall i | 0 <= i < |summary.submitted| ::
              var s := summary.submitted[i];
              read(s.name) == Parsed(s.hash) && s.ok == accepted(s.name)
  {
    var known := LoadHashes(ledger);
    summary := IngestFold(read, accepted, Start(known), Sort(listing));
    RunConsistent(read, accepted, ledger, listing);
    RunTotal(read, accepted, ledger, listing);
    saved := SaveHashes(summary.known);
  }
}

=== FILE: ledger.dfy ===
/**
 * The ingestion ledger `ingested_hashes.json`: the chunk hashes already sent to
 * the search service, stored as a JSON list.
 */
module Ledger {
  import opened Wrappers

  /** A chunk hash as read from a chunk file: `None` when the file has no `chunk_hash`
      (JSON `null` in the ledger). */
  type Hash = Option<string>

  /** The ledger file as `load_hashes` finds it: missing, or present with its size
      test and what `json.load` makes of it (`None` for a JSON decode error). */
  datatype LedgerFile =
    | Missing
    | Present(zeroLength: bool, parsed: Option<seq<Hash>>)

  /** Whether the file holds a list that `load_hashes` reads. */
  predicate Readable(f: LedgerFile) {
    f.Present? && !f.zeroLength && f.parsed.Some?
  }

  /** `load_hashes()`: missing, empty and undecodable files all give the empty set. */
  function LoadHashes(f: LedgerFile): (r: set<Hash>)
    ensures !Readable(f) ==> r == {}
    ensures Readable(f) ==> forall h :: h in r <==> h in f.parsed.value
  {
    if f.Missing? || f.zeroLength then {}
    else match f.parsed
      case None => {}
      case Some(hs) => set h | h in hs
  }

  /** `save_hashes(hashes)`: `json.dump(list(hashes))`, in whatever order the set yields. */
  method SaveHashes(hashes: set<Hash>) returns (f: LedgerFile)
    ensures Readable(f)
    ensures |f.parsed.value| == |hashes|
    ensures forall i, j | 0 <= i < j < |f.parsed.value| :: f.parsed.value[i] != f.parsed.value[j]
    ensures LoadHashes(f) == hashes
  {
    var xs: seq<Hash> := [];
    var rest := hashes;
    while rest != {}
      invariant forall h :: h in hashes <==> h in rest || h in xs
      invariant forall i | 0 <= i < |xs| :: xs[i] !in rest
      invariant forall i, j | 0 <= i < j < |xs| :: xs[i] != xs[j]
      invariant |xs| + |rest| == |hashes|
      decreases |rest|
    {
      var h :| h in rest;
      xs := xs + [h];
      rest := rest - {h};
    }
    f := Present(false, Some(xs));
  }
}

=== FILE: listing.dfy ===
/**
 * The ingestion driver's view of the cleaned directory: `sorted(os.listdir(...))`
 * and the `.json` name filter.
 */
module Listing {

  /** Python's `a <= b` on strings: code points compared left to right, a proper prefix first. */
  predicate NameLe(a: string, b: string)
    decreases |a|
  {
    |a| == 0 || (|b| > 0 && (a[0] < b[0] || (a[0] == b[0] && NameLe(a[1..], b[1..]))))
  }

  /** Any two names are ordered one way or the other. */
  lemma {:induction false} NameLeTotal(a: string, b: string)
    ensures NameLe(a, b) || NameLe(b, a)
    decreases |a|
  {
    if |a| > 0 && |b| > 0 && a[0] == b[0] {
      NameLeTotal(a[1..], b[1..]);
    }
  }

  /** Only equal names are ordered both ways. */
  lemma {:induction false} NameLeAntisymmetric(a: string, b: string)
    requires NameLe(a, b) && NameLe(b, a)
    ensures a == b
    decreases |a|
  {
    if |a| > 0 {
      NameLeAntisymmetric(a[1..], b[1..]);
      assert a == [a[0]] + a[1..] && b == [b[0]] + b[1..];
    }
  }

  /** Each name is at most its successor. */
  predicate Sorted(s: seq<string>) {
    forall i | 0 < i < |s| :: NameLe(s[i - 1], s[i])
  }

  /** Inserting one name into a sorted listing. */
  function Insert(x: string, s: seq<string>): (r: seq<string>)
    ensures multiset(r) == multiset(s) + multiset{x}
    ensures |r| > 0 && (r[0] == x || (|s| > 0 && r[0] == s[0]))
    ensures Sorted(s) ==> Sorted(r)
  {
    if |s| == 0 then [x]
    else if NameLe(x, s[0]) then [x] + s
    else
      NameLeTotal(x, s[0]);
      assert s == [s[0]] + s[1..];
      [s[0]] + Insert(x, s[1..])
  }

  /** `sorted(names)`. */
  function Sort(names: seq<string>): (r: seq<string>)
    ensures Sorted(r)
    ensures multiset(r) == multiset(names)
  {
    if |names| == 0 then []
    else
      assert names == [names[0]] + names[1..];
      Insert(names[0], Sort(names[1..]))
  }

  /** Sorting a sorted listing changes nothing. */
  lemma {:induction false} SortSortedIsIdentity(names: seq<string>)
    requires Sorted(names)
    ensures Sort(names) == names
  {
    if |names| > 0 {
      SortSortedIsIdentity(names[1..]);
      if |names| > 1 {
        assert NameLe(names[0], names[1]);
      }
    }
  }

  /** `name.endswith(".json")`. */
  predicate IsJsonName(name: string) {
    |name| >= 5 && name[|name| - 5..] == ".json"
  }

  /** How many names in a listing end in `.json`. */
  function JsonCount(names: seq<string>): (n: nat)
    ensures n <= |names|
  {
    if |names| == 0 then 0
    else (if IsJsonName(names[0]) then 1 else 0) + JsonCount(names[1..])
  }

  /** Inserting a name adds its own count. */
  lemma {:induction false} InsertJsonCount(x: string, s: seq<string>)
    ensures JsonCount(Insert(x, s)) == JsonCount([x]) + JsonCount(s)
  {
    if |s| > 0 && !NameLe(x, s[0]) {
      InsertJsonCount(x, s[1..]);
      assert ([s[0]] + Insert(x, s[1..]))[1..] == Insert(x, s[1..]);
    } else {
      assert ([x] + s)[1..] == s;
    }
  }

  /** Sorting keeps the number of `.json` names. */
  lemma {:induction false} SortKeepsJsonCount(names: seq<string>)
    ensures JsonCount(Sort(names)) == JsonCount(names)
  {
    if |names| > 0 {
      SortKeepsJsonCount(names[1..]);
      InsertJsonCount(names[0], Sort(names[1..]));
    }
  }
}

=== FILE: naming.dfy ===
/**
 * The file names and titles the scrapers format from page and chunk numbers:
 * `f"page_{n}.json"`, `f"page_{n}_chunk_{m}.json"` and `f"Page {n}"`.
 */
module Naming {

  predicate IsDigit(c: char) {
    '0' <= c <= '9'
  }

  predicate AllDigits(s: string) {
    forall i | 0 <= i < |s| :: IsDigit(s[i])
  }

  function DigitChar(d: nat): (c: char)
    requires d < 10
    ensures IsDigit(c)
  {
    ('0' as int + d) as char
  }

  /** `str(n)` for a natural number: its decimal digits, most significant first. */
  function Decimal(n: nat): (s: string)
    ensures |s| > 0 && AllDigits(s)
  {
    if n < 10 then [DigitChar(n)] else Decimal(n / 10) + [DigitChar(n % 10)]
  }

  /** Different numbers print differently. */
  lemma {:induction false} DecimalInjective(a: nat, b: nat)
    requires Decimal(a) == Decimal(b)
    ensures a == b
  {
    var s := Decimal(a);
    if a >= 10 && b >= 10 {
      assert s[|s| - 1] == DigitChar(a % 10) && s[|s| - 1] == DigitChar(b % 10);
      assert a % 10 == b % 10;
      assert Decimal(a / 10) == s[..|s| - 1] == Decimal(b / 10);
      DecimalInjective(a / 10, b / 10);
    }
  }

  /** A digit string followed by text starting with a non-digit can be split back apart. */
  lemma DigitsThenSeparator(x: string, s: string, y: string, t: string)
    requires AllDigits(x) && AllDigits(y)
    requires |s| > 0 && !IsDigit(s[0]) && |t| > 0 && !IsDigit(t[0])
    requires x + s == y + t
    ensures x == y && s == t
  {
    var m := if |x| <= |y| then |x| else |y|;
    assert IsDigit((x + s)[m]) <==> m < |x|;
    assert IsDigit((y + t)[m]) <==> m < |y|;
    assert x == (x + s)[..|x|] == (y + t)[..|y|] == y;
    assert s == (x + s)[|x|..] == (y + t)[|y|..] == t;
  }

  /** `f"page_{n}.json"`: a raw page file. */
  function PageFileName(n: nat): string {
    "page_" + (Decimal(n) + ".json")
  }

  /** `f"page_{n}_chunk_{m}.json"`: a chunk file of the non-deduplicating scraper. */
  function ChunkFileName(n: nat, m: nat): string {
    "page_" + (Decimal(n) + ChunkSuffix(m))
  }

  /** `f"Page {n}"`: the default page title. */
  function PageTitle(n: nat): string {
    "Page " + Decimal(n)
  }

  /** Default titles of different pages differ. */
  lemma PageTitleInjective(a: nat, b: nat)
    requires PageTitle(a) == PageTitle(b)
    ensures a == b
  {
    DropPrefix("Page ", Decimal(a), Decimal(b));
    DecimalInjective(a, b);
  }

  lemma DropPrefix(p: string, x: string, y: string)
    requires p + x == p + y
    ensures x == y
  {
    assert x == (p + x)[|p|..];
    assert y == (p + y)[|p|..];
  }

  /** Raw page file names of different pages differ. */
  lemma PageFileNameInjective(a: nat, b: nat)
    requires PageFileName(a) == PageFileName(b)
    ensures a == b
  {
    DropPrefix("page_", Decimal(a) + ".json", Decimal(b) + ".json");
    DigitsThenSeparator(Decimal(a), ".json", Decimal(b), ".json");
    DecimalInjective(a, b);
  }

  /** The part of a chunk file name after `page_{n}`. */
  function ChunkSuffix(m: nat): string {
    "_chunk_" + (Decimal(m) + ".json")
  }

  lemma ChunkSuffixInjective(b: nat, d: nat)
    requires ChunkSuffix(b) == ChunkSuffix(d)
    ensures b == d
  {
    DropPrefix("_chunk_", Decimal(b) + ".json", Decimal(d) + ".json");
    DigitsThenSeparator(Decimal(b), ".json", Decimal(d), ".json");
    DecimalInjective(b, d);
  }

  /** Chunk file names of different (page, chunk) pairs differ. */
  lemma ChunkFileNameInjective(a: nat, b: nat, c: nat, d: nat)
    requires ChunkFileName(a, b) == ChunkFileName(c, d)
    ensures a == c && b == d
  {
    var x := Decimal(a) + ChunkSuffix(b);
    var y := Decimal(c) + ChunkSuffix(d);
    DropPrefix("page_", x, y);
    DigitsThenSeparator(Decimal(a), ChunkSuffix(b), Decimal(c), ChunkSuffix(d));
    DecimalInjective(a, c);
    ChunkSuffixInjective(b, d);
  }

  /** A chunk file name is never a raw page file name. */
  lemma ChunkFileNameIsNotPageFileName(a: nat, b: nat, c: nat)
    ensures ChunkFileName(a, b) != PageFileName(c)
  {
    if ChunkFileName(a, b) == PageFileName(c) {
      var p := "page_";
      DropPrefix(p, Decimal(a) + ChunkSuffix(b), Decimal(c) + ".json");
      DigitsThenSeparator(Decimal(a), ChunkSuffix(b), Decimal(c), ".json");
      assert false;
    }
  }

  /** A file of the scrapers' output directories, by what its name encodes. */
  datatype FileName = PageFile(page: nat) | ChunkFile(page: nat, chunk: nat)

  /** The name on disk. */
  function Render(f: FileName): string {
    match f
    case PageFile(n) => PageFileName(n)
    case ChunkFile(n, m) => ChunkFileName(n, m)
  }

  /** Different files have different names, so a directory may be keyed by `FileName`. */
  lemma RenderInjective(f: FileName, g: FileName)
    requires Render(f) == Render(g)
    ensures f == g
  {
    match (f, g)
    case (PageFile(a), PageFile(c)) => PageFileNameInjective(a, c);
    case (PageFile(a), ChunkFile(c, d)) => ChunkFileNameIsNotPageFileName(c, d, a);
    case (ChunkFile(a, b), PageFile(c)) => ChunkFileNameIsNotPageFileName(a, b, c);
    case (ChunkFile(a, b), ChunkFile(c, d)) => ChunkFileNameInjective(a, b, c, d);
  }
}

=== FILE: text.dfy ===
/**
 * The text helpers shared by both scrapers: Python's `str.split()`,
 * `" ".join(...)`, `str.strip()`, the newline-collapsing substitution
 * `re.sub(r"\n+", "\n", ...)`, and the lower-casing used for hashing.
 */
module Text {

  /** Python's `str.isspace()` for one character: the separators `split()` and `strip()` use. */
  predicate IsSpace(c: char) {
    || c == ' '
    || ('\t' <= c <= '\r')
    || ('\U{1c}' <= c <= '\U{1f}')
    || c == '\U{85}'
    || c == '\U{a0}'
    || c == '\U{1680}'
    || ('\U{2000}' <= c <= '\U{200a}')
    || c == '\U{2028}'
    || c == '\U{2029}'
    || c == '\U{202f}'
    || c == '\U{205f}'
    || c == '\U{3000}'
  }

  /** A word as `split()` produces it: non-empty, no whitespace inside. */
  predicate IsWord(w: string) {
    |w| > 0 && forall i | 0 <= i < |w| :: !IsSpace(w[i])
  }

  /** True when `s` begins in the middle of a word, i.e. with a non-space character. */
  predicate StartsWord(s: string) {
    |s| > 0 && !IsSpace(s[0])
  }

  /** Prepends the non-space character `c` to a word list: onto its first word
      when `attach` (the text after `c` continues that word), else as a word of its own. */
  function Glue(c: char, ws: seq<string>, attach: bool): seq<string> {
    if attach && |ws| > 0 then [[c] + ws[0]] + ws[1..] else [[c]] + ws
  }

  /** `s.split()`: the maximal runs of non-space characters, in order. */
  function Words(s: string): (ws: seq<string>)
    ensures forall k | 0 <= k < |ws| :: IsWord(ws[k])
    ensures StartsWord(s) ==> |ws| > 0 && |ws[0]| > 0 && ws[0][0] == s[0]
  {
    if |s| == 0 then []
    else if IsSpace(s[0]) then Words(s[1..])
    else Glue(s[0], Words(s[1..]), StartsWord(s[1..]))
  }

  /** `" ".join(ws)`. */
  function Join(ws: seq<string>): string {
    if |ws| == 0 then ""
    else if |ws| == 1 then ws[0]
    else ws[0] + " " + Join(ws[1..])
  }

  /** No newline is immediately followed by another newline. */
  predicate NoDoubleNewline(s: string) {
    forall i | 0 <= i < |s| - 1 :: s[i] != '\n' || s[i + 1] != '\n'
  }

  /** The characters of `s` other than newlines, in order. */
  function DropNewlines(s: string): string {
    if |s| == 0 then ""
    else if s[0] == '\n' then DropNewlines(s[1..])
    else [s[0]] + DropNewlines(s[1..])
  }

  /** `re.sub(r"\n+", "\n", s)`: every run of newlines becomes one newline. */
  function CollapseNewlines(s: string): (r: string)
    ensures NoDoubleNewline(r)
    ensures DropNewlines(r) == DropNewlines(s)
    ensures |s| > 0 ==> |r| > 0 && r[0] == s[0]
    ensures |s| > 0 ==> |r| > 0 && r[|r| - 1] == s[|s| - 1]
  {
    if |s| == 0 then s
    else if |s| >= 2 && s[0] == '\n' && s[1] == '\n' then CollapseNewlines(s[1..])
    else [s[0]] + CollapseNewlines(s[1..])
  }

  /** `s.lstrip()`: `s` without its leading whitespace. */
  function StripStart(s: string): (r: string)
    ensures |r| <= |s| && r == s[|s| - |r|..]
    ensures forall i | 0 <= i < |s| - |r| :: IsSpace(s[i])
    ensures |r| > 0 ==> !IsSpace(r[0])
  {
    if |s| > 0 && IsSpace(s[0]) then StripStart(s[1..]) else s
  }

  /** `s.rstrip()`: `s` without its trailing whitespace. */
  function StripEnd(s: string): (r: string)
    ensures |r| <= |s| && r == s[..|r|]
    ensures forall i | |r| <= i < |s| :: IsSpace(s[i])
    ensures |r| > 0 ==> !IsSpace(r[|r| - 1])
  {
    if |s| > 0 && IsSpace(s[|s| - 1]) then StripEnd(s[..|s| - 1]) else s
  }

  /** `s.strip()`. */
  function Strip(s: string): (r: string)
    ensures |r| > 0 ==> !IsSpace(r[0]) && !IsSpace(r[|r| - 1])
    ensures |r| <= |s|
  {
    var t := StripStart(s);
    var r := StripEnd(t);
    assert |r| > 0 ==> r[0] == t[0];
    r
  }

  /** `clean_text`: collapse newline runs, then strip both ends. */
  function CleanText(s: string): (r: string)
    ensures NoDoubleNewline(r)
    ensures |r| > 0 ==> !IsSpace(r[0]) && !IsSpace(r[|r| - 1])
  {
    var c := CollapseNewlines(s);
    StripKeepsNoDoubleNewline(c);
    Strip(c)
  }

  /** The lower-case map on one character (ASCII letters only). */
  function LowerChar(c: char): char {
    if 'A' <= c <= 'Z' then (c as int + 32) as char else c
  }

  /** `s.lower()`, character by character. */
  function Lower(s: string): (r: string)
    ensures |r| == |s|
  {
    seq(|s|, i requires 0 <= i < |s| => LowerChar(s[i]))
  }

  /** Every character is already its own lower-case form. */
  predicate IsLowerCase(s: string) {
    forall i | 0 <= i < |s| :: LowerChar(s[i]) == s[i]
  }

  /** Lower-cases each word of a word list. */
  function LowerWords(ws: seq<string>): (r: seq<string>)
    ensures |r| == |ws|
  {
    seq(|ws|, k requires 0 <= k < |ws| => Lower(ws[k]))
  }

  /** `normalize_text`: lower-case, then join the words with single spaces. The result
      is the text's own words, each lower-cased, single-spaced, and it splits back into them. */
  function NormalizeText(s: string): (r: string)
    ensures r == Join(LowerWords(Words(s)))
    ensures Words(r) == LowerWords(Words(s))
  {
    WordsLower(s);
    WordsJoin(Words(Lower(s)));
    Join(Words(Lower(s)))
  }

  // ------------------------------------------------------------------
  // Stripping
  // ------------------------------------------------------------------

  /** A slice of a string with no double newline has none either. */
  lemma SliceKeepsNoDoubleNewline(s: string, a: nat, b: nat)
    requires a <= b <= |s| && NoDoubleNewline(s)
    ensures NoDoubleNewline(s[a..b])
  {
    var t := s[a..b];
    forall i | 0 <= i < |t| - 1
      ensures t[i] != '\n' || t[i + 1] != '\n'
    {
      assert t[i] == s[a + i] && t[i + 1] == s[a + i + 1];
    }
  }

  lemma StripKeepsNoDoubleNewline(s: string)
    requires NoDoubleNewline(s)
    ensures NoDoubleNewline(Strip(s))
  {
    var t := StripStart(s);
    SliceKeepsNoDoubleNewline(s, |s| - |t|, |s|);
    SliceKeepsNoDoubleNewline(t, 0, |StripEnd(t)|);
  }

  /** Stripping a string that neither starts nor ends with whitespace changes nothing. */
  lemma StripFixpoint(s: string)
    requires |s| > 0 ==> !IsSpace(s[0]) && !IsSpace(s[|s| - 1])
    ensures Strip(s) == s
  {
  }

  /** Only whitespace, or nothing at all. */
  predicate IsBlank(s: string) {
    forall i | 0 <= i < |s| :: IsSpace(s[i])
  }

  /** `s.strip()` is empty exactly when `s` is blank. */
  lemma StripEmptyIffBlank(s: string)
    ensures Strip(s) == "" <==> IsBlank(s)
  {
    var t := StripStart(s);
    if Strip(s) == "" {
      assert t == "";
    } else {
      var r := Strip(s);
      assert r[0] == t[0] == s[|s| - |t|];
    }
  }

  /** Collapsing a string with no double newline changes nothing. */
  lemma {:induction false} CollapseFixpoint(s: string)
    requires NoDoubleNewline(s)
    ensures CollapseNewlines(s) == s
  {
    if |s| > 0 {
      SliceKeepsNoDoubleNewline(s, 1, |s|);
      CollapseFixpoint(s[1..]);
      assert s == [s[0]] + s[1..];
    }
  }

  // ------------------------------------------------------------------
  // Words
  // ------------------------------------------------------------------

  /** Leading whitespace does not change the words. */
  lemma {:induction false} WordsStripStart(s: string)
    ensures Words(StripStart(s)) == Words(s)
  {
    if |s| > 0 && IsSpace(s[0]) {
      WordsStripStart(s[1..]);
    }
  }

  /** Appending one whitespace character does not change the words. */
  lemma {:induction false} WordsAppendSpace(s: string, c: char)
    requires IsSpace(c)
    ensures Words(s + [c]) == Words(s)
  {
    var t := s + [c];
    if |s| == 0 {
      assert t[1..] == [];
    } else {
      assert t[0] == s[0];
      assert t[1..] == s[1..] + [c];
      WordsAppendSpace(s[1..], c);
      assert StartsWord(t[1..]) == StartsWord(s[1..]);
    }
  }

  /** Trailing whitespace does not change the words. */
  lemma {:induction false} WordsStripEnd(s: string)
    ensures Words(StripEnd(s)) == Words(s)
  {
    if |s| > 0 && IsSpace(s[|s| - 1]) {
      var p := s[..|s| - 1];
      assert s == p + [s[|s| - 1]];
      WordsAppendSpace(p, s[|s| - 1]);
      WordsStripEnd(p);
    }
  }

  lemma WordsStrip(s: string)
    ensures Words(Strip(s)) == Words(s)
  {
    WordsStripStart(s);
    WordsStripEnd(StripStart(s));
  }

  /** Collapsing newline runs does not change the words. */
  lemma {:induction false} WordsCollapse(s: string)
    ensures Words(CollapseNewlines(s)) == Words(s)
  {
    if |s| == 0 {
    } else if |s| >= 2 && s[0] == '\n' && s[1] == '\n' {
      WordsCollapse(s[1..]);
    } else {
      var t := [s[0]] + CollapseNewlines(s[1..]);
      assert t[0] == s[0] && t[1..] == CollapseNewlines(s[1..]);
      WordsCollapse(s[1..]);
      assert StartsWord(t[1..]) == StartsWord(s[1..]);
    }
  }

  /** A word followed by text that does not continue it splits off as the first word. */
  lemma {:induction false} WordsOfWordThen(w: string, x: string)
    requires IsWord(w) && !StartsWord(x)
    ensures Words(w + x) == [w] + Words(x)
  {
    var s := w + x;
    assert s[0] == w[0];
    assert s[1..] == w[1..] + x;
    if |w| == 1 {
      assert w[1..] + x == x;
      assert [w[0]] == w;
    } else {
      WordsOfWordThen(w[1..], x);
      assert StartsWord(w[1..] + x) by { assert (w[1..] + x)[0] == w[1]; }
      assert [w[0]] + w[1..] == w;
    }
  }

  /** Splitting a string made of words joined by single spaces gives the words back. */
  lemma {:induction false} WordsJoin(ws: seq<string>)
    requires forall k | 0 <= k < |ws| :: IsWord(ws[k])
    ensures Words(Join(ws)) == ws
  {
    if |ws| == 0 {
    } else if |ws| == 1 {
      WordsOfWordThen(ws[0], "");
      assert ws[0] + "" == ws[0];
    } else {
      var rest := Join(ws[1..]);
      assert Join(ws) == ws[0] + (" " + rest);
      WordsOfWordThen(ws[0], " " + rest);
      assert (" " + rest)[1..] == rest;
      WordsJoin(ws[1..]);
      assert ws == [ws[0]] + ws[1..];
    }
  }

  // ------------------------------------------------------------------
  // clean_text
  // ------------------------------------------------------------------

  /** `clean_text` keeps exactly the words of its input, in order. */
  lemma CleanTextKeepsWords(s: string)
    ensures Words(CleanText(s)) == Words(s)
  {
    WordsCollapse(s);
    WordsStrip(CollapseNewlines(s));
  }

  /** `clean_text` applied twice is `clean_text` applied once. */
  lemma CleanTextIdempotent(s: string)
    ensures CleanText(CleanText(s)) == CleanText(s)
  {
    var c := CleanText(s);
    CollapseFixpoint(c);
    StripFixpoint(c);
  }

  /** `clean_text` yields the empty string exactly when the text has no words. */
  lemma CleanTextEmptyIffBlank(s: string)
    ensures CleanText(s) == "" <==> Words(s) == []
  {
    CleanTextKeepsWords(s);
    var r := CleanText(s);
    if r != "" {
      assert StartsWord(r);
    }
  }

  // ------------------------------------------------------------------
  // normalize_text
  // ------------------------------------------------------------------

  lemma LowerCharIdempotent(c: char)
    ensures LowerChar(LowerChar(c)) == LowerChar(c)
    ensures IsSpace(LowerChar(c)) == IsSpace(c)
  {
  }

  /** Lower-casing a word list after gluing a character on is gluing the lower-cased character on. */
  lemma LowerGlue(c: char, ws: seq<string>, attach: bool)
    ensures LowerWords(Glue(c, ws, attach)) == Glue(LowerChar(c), LowerWords(ws), attach)
  {
    if attach && |ws| > 0 {
      assert Lower([c] + ws[0]) == [LowerChar(c)] + Lower(ws[0]);
    } else {
      assert Lower([c]) == [LowerChar(c)];
    }
  }

  /** Lower-casing commutes with splitting into words. */
  lemma {:induction false} WordsLower(s: string)
    ensures Words(Lower(s)) == LowerWords(Words(s))
  {
    var t := Lower(s);
    if |s| > 0 {
      assert t[0] == LowerChar(s[0]);
      assert t[1..] == Lower(s[1..]);
      LowerCharIdempotent(s[0]);
      WordsLower(s[1..]);
      if !IsSpace(s[0]) {
        if |s| > 1 {
          LowerCharIdempotent(s[1]);
          assert t[1..][0] == LowerChar(s[1..][0]);
        }
        assert StartsWord(t[1..]) == StartsWord(s[1..]);
        LowerGlue(s[0], Words(s[1..]), StartsWord(s[1..]));
      }
    }
  }

  /** Every character of a word of `s` is a character of `s`. */
  lemma {:induction false} WordsOfLowerCase(s: string)
    requires IsLowerCase(s)
    ensures forall k | 0 <= k < |Words(s)| :: IsLowerCase(Words(s)[k])
  {
    if |s| > 0 {
      assert IsLowerCase(s[1..]) by {
        forall i | 0 <= i < |s[1..]| ensures LowerChar(s[1..][i]) == s[1..][i] {
          assert s[1..][i] == s[i + 1];
        }
      }
      WordsOfLowerCase(s[1..]);
      if !IsSpace(s[0]) {
        var ws := Words(s[1..]);
        if StartsWord(s[1..]) {
          var w := [s[0]] + ws[0];
          assert IsLowerCase(w) by {
            forall i | 0 <= i < |w| ensures LowerChar(w[i]) == w[i] {
              if i > 0 { assert w[i] == ws[0][i - 1]; }
            }
          }
        }
      }
    }
  }

  /** Words joined by spaces are lower case when every word is. */
  lemma {:induction false} JoinLowerCase(ws: seq<string>)
    requires forall k | 0 <= k < |ws| :: IsLowerCase(ws[k])
    ensures IsLowerCase(Join(ws))
  {
    if |ws| > 1 {
      JoinLowerCase(ws[1..]);
      var j := Join(ws);
      assert j == ws[0] + " " + Join(ws[1..]);
      forall i | 0 <= i < |j| ensures LowerChar(j[i]) == j[i] {
        if i < |ws[0]| {
          assert j[i] == ws[0][i];
        } else if i > |ws[0]| {
          assert j[i] == Join(ws[1..])[i - |ws[0]| - 1];
        }
      }
    }
  }

  lemma LowerOfLowerCase(s: string)
    requires IsLowerCase(s)
    ensures Lower(s) == s
  {
  }

  lemma LowerIsLowerCase(s: string)
    ensures IsLowerCase(Lower(s))
  {
    forall i | 0 <= i < |s| ensures LowerChar(Lower(s)[i]) == Lower(s)[i] {
      LowerCharIdempotent(s[i]);
    }
  }

  /** `normalize_text` applied twice is `normalize_text` applied once. */
  lemma NormalizeTextIdempotent(s: string)
    ensures NormalizeText(NormalizeText(s)) == NormalizeText(s)
  {
    var ws := Words(Lower(s));
    LowerIsLowerCase(s);
    WordsOfLowerCase(Lower(s));
    JoinLowerCase(ws);
    LowerOfLowerCase(Join(ws));
    WordsJoin(ws);
  }

  /** Two texts normalize equally exactly when their lower-cased word lists agree. */
  lemma NormalizeTextEqualIff(a: string, b: string)
    ensures NormalizeText(a) == NormalizeText(b) <==> LowerWords(Words(a)) == LowerWords(Words(b))
  {
    WordsLower(a);
    WordsLower(b);
    if NormalizeText(a) == NormalizeText(b) {
      WordsJoin(Words(Lower(a)));
      WordsJoin(Words(Lower(b)));
    }
  }
}

=== FILE: wrappers.dfy ===
/** The optional value used wherever the pipeline reads a field that may be absent. */
module Wrappers {

  datatype Option<+T> = None | Some(value: T) {

    /** The wrapped value, or `default` when there is none. */
    function GetOr(default: T): T {
      match this
      case Some(v) => v
      case None => default
    }
  }
}
